=== FILE: README.md ===
# coretemp: a Dafny model of the illumos Intel core-temperature driver and its reporter

The coretemp driver reads each physical core's digital thermal sensor. It publishes one
named kstat per core holding eight 32-bit values: chip id, core id, thread id, core
temperature, package temperature, Tj(max), target temperature and a valid flag. The
`coretempstat` command reads those kstats back and prints them, grouped by socket and
core, either for people or with `-p` for scripts.

This project models both halves as pure functions over immutable values and proves what
they promise.

- `ints.dfy` (`Ints`): the C integer widths as subset types. It also holds the two
  conversions the code relies on: `long` to `int` narrowing and `uint64_t` to `long`
  reinterpretation.
- `wrappers.dfy` (`Wrappers`): `Option`.
- `decimal.dfy` (`Decimal`): printf's `%d` and `atoi`, with the lemma that `atoi` reads
  back what `%d` writes.
- `coretemp.dfy` (`CoreTemp`): the register decoder.
  - `intel_fill_fields` and the three `ctemp_fill_*` steps.
  - The fall-through in `ctemp_fill_fields`.
  - The guards of the kstat update callback.

  Each register read is an `Option<bv32>`, where `None` is the failed `rdmsr`. The
  decoder also returns the list of MSR indices it tried to read.
- `topology.dfy` (`Topology`): the scan in `ctemp_attach` that keeps one representative
  cpu per (chip, core) pair, plus the attach and detach command and vendor checks.
- `kstat.dfy` (`KStat`): named kstats as a reader sees them, and `getKStatNumber`.
- `publish.dfy` (`Publication`): the records the driver installs for its core table.
  It proves that a reader gets back each value a successful refresh wrote, and reads
  -1 for every field when the refresh fails.
- `coretempstat.dfy` (`CoreTempStat`): the reporter's `main`:
  - argument parsing and enumeration;
  - the socket count;
  - the per-(socket, core) first-match grouping;
  - the lines printed in each mode and their text;
  - `temp_to_str`.

The driver publishes its records under module "coretemp", instance i, name "coretemp".
The reporter looks up module "cpu_info", any instance, name "coretemp<i>". The model
keeps both as written. `CoreTempStat.DriverChainInvisible` proves the consequence:
against the driver's own records, the reporter finds no cpu and prints only
"Found 0 CPUs in 0 sockets".

## Model

| member | source | states |
|---|---|---|
| `Ints.Wrap32` | coretempstat.c:54 | storing a `long` in an `int` keeps every value in the int range and is otherwise congruent modulo 2^32 |
| `Ints.Signed64` | coretempstat.c:171-172 | a `uint64_t` value returned as `long` is unchanged below 2^63 and negative (congruent modulo 2^64) above |
| `Decimal.IntToString` | coretempstat.c:138 | `%d` writes a minus sign exactly for negative numbers, followed by digits only, with no leading zero unless the number is 0 |
| `Decimal.Atoi` | coretempstat.c:44 | atoi yields 0 for text without any digit |
| `Decimal.AtoiIntToString` | coretempstat.c:44 | atoi reads back every number `%d` wrote, whatever non-digit text follows |
| `Decimal.IntToStringInjective` | coretempstat.c:52 | `%d` never writes the same text for two different numbers |
| `CoreTemp.TjMaxField` | coretemp.c:406 | Tj(max) taken from bits 23:16 of the temperature target lies in 0..255 |
| `CoreTemp.TargetOffsetField` | coretemp.c:408 | the target's offset below Tj(max), bits 15:8 of the temperature target, lies in 0..255 |
| `CoreTemp.ReadoutField` | coretemp.c:426 | the thermal readout (bits 22:16) lies in 0..127 |
| `CoreTemp.Below` | coretemp.c:425-426 | a temperature `delta` degrees below Tj(max) is `tjMax - delta` without 32-bit wrap-around whenever Tj(max) is at least INT32_MIN + 255, which covers every Tj(max) the 8-bit field can hold |
| `CoreTemp.Reset` | coretemp.c:311-316 | before any register is read, Tj(max) is 100 and both temperatures, the target and valid are 0; the ids are untouched |
| `CoreTemp.FillTjMax` | coretemp.c:384-410 | the target MSR is tried only for model >= 0x0E outside {0x1C, 0x26, 0x27, 0x35, 0x36}; with no read or a failed read nothing changes; on success Tj(max) is in 0..255 and the target at most 255 below it; no other field changes |
| `CoreTemp.FillCoreTemp` | coretemp.c:412-430 | THERM_STATUS is tried exactly when CPUID bit 0 is set; valid becomes 1 and the core temperature falls in [tjMax-127, tjMax] exactly when the read succeeds with bit 31 set; otherwise nothing changes |
| `CoreTemp.FillPkgTemp` | coretemp.c:432-450 | the package MSR is tried exactly when CPUID bit 6 is set; the package temperature equals the core's unless that read succeeds, and then lies in [tjMax-127, tjMax] with no valid-bit check; no other field changes |
| `CoreTemp.IntelFillFields` | coretemp.c:305-324 | the full refresh: ids unchanged, Tj(max) in 0..255, the target defaults when not read, valid is 0 or 1 and is 1 iff the core reading is valid, the core temperature is 0 when invalid, the package falls back to the core, and the MSRs are tried in the order target, thermal status, package |
| `CoreTemp.CtempFillFields` | coretemp.c:326-339 | the Intel case runs the refresh and still returns EINVAL; any other vendor leaves the buffer untouched and returns EINVAL |
| `CoreTemp.KStatUpdate` | coretemp.c:113-139 | a write returns EACCES and changes nothing; a read clears valid and returns ENXIO without the MSR feature; otherwise it returns 0 with the ids from the topology queries and the Intel refresh; no MSR is read unless the access is a read, the MSR feature is present and the vendor is Intel |
| `CoreTemp.DecoderMatchesReference` | coretemp.c:309-321 | the refresh equals a field-by-field reading of the three registers: Tj(max) first, then the core reading against it, then the package reading or the core's |
| `CoreTemp.FreshDefaults` | coretemp.c:311-316 | the decoded fields depend only on the model, the CPUID word and the register reads, never on what an earlier refresh left in the buffer |
| `CoreTemp.RefreshIdempotent` | coretemp.c:113-139 | a second refresh over the same hardware leaves the record and the status unchanged |
| `CoreTemp.TargetFaultIsolated` | coretemp.c:402-404 | a failed target read leaves Tj(max) 100 and target 0 while the core reading is still taken, against 100 |
| `CoreTemp.ThermFaultIsolated` | coretemp.c:420-422 | a failed thermal-status read loses only the core reading; Tj(max), the target and a successful package reading are unaffected |
| `CoreTemp.PackageFaultIsolated` | coretemp.c:443-445 | a failed package read changes only the package temperature, which falls back to the core's |
| `CoreTemp.DecodeExample` | coretemp.c:406-408 | model 0x3A with target 0x00640A00 gives Tj(max) 100 and target 90, readings 42 and 48 below give 58 and 52, and all three MSRs are tried in order |
| `CoreTemp.HighTjMaxExample` | coretemp.c:406-408 | Tj(max) is the full 8-bit field: target 0x00A00A00, with bit 23 set, gives Tj(max) 160 and target 150, and readings 42 and 48 below give 118 and 112 |
| `CoreTemp.FieldMasksExample` | coretemp.c:406-408 | each field is exactly its bit range: Tj(max) is bits 23:16 and the target offset bits 15:8, and the thermal readout, also read at coretemp.c:426 and 448, is bits 22:16. All ones inside the range read as its maximum, and all ones outside it read as 0 |
| `CoreTemp.ExcludedModelExample` | coretemp.c:393-399 | for model 0x1C the target MSR is never read and Tj(max) stays 100 |
| `Topology.VisitedFrom` | coretemp.c:197-204 | the visited check is true iff some registered core has the cpu's (chip, core) pair |
| `Topology.FirstFrom` | coretemp.c:191-196 | the position of the first cpu carrying a pair, or none |
| `Topology.ScanStep` | coretemp.c:194-211 | one step of the scan appends the cpu's core exactly when its pair is not yet registered, and afterwards the pair is registered |
| `Topology.DedupFrom` | coretemp.c:191-213 | the scan only appends to the table it starts from, and by at most one core per cpu |
| `Topology.DedupKeepsUnique` | coretemp.c:191-213 | a table without repeated pairs stays without repeated pairs |
| `Topology.DedupCovers` | coretemp.c:191-213 | every scanned cpu's pair is registered afterwards |
| `Topology.DedupAppendedInOrder` | coretemp.c:191-213 | each appended core is the first cpu carrying its pair, and appended cores come in order of first appearance |
| `Topology.Dedup` | coretemp.c:191-213 | from an empty table: no repeated pairs, every pair covered, each core represented by its first cpu, in order of first appearance, no longer than the cpu list |
| `Topology.UniqueKeysCount` | coretemp.c:199-211 | a table without repeated pairs has as many distinct pairs as entries |
| `Topology.DedupCount` | coretemp.c:191-213 | the scan keeps exactly one core per distinct (chip, core) pair |
| `Topology.DedupKnownCores` | coretemp.c:197-211 | cpus whose pairs are all registered add nothing |
| `Topology.ReattachKeepsRegistry` | coretemp.c:186-213 | attaching again over the same cpus with the table left in place succeeds and keeps the table |
| `Topology.Attach` | coretemp.c:162-238 | attach fails for any command but DDI_ATTACH, without CPUID, or for a non-Intel vendor, and then leaves the table alone; otherwise the old table is kept as a prefix and every cpu's pair is registered. Each appended entry is a pair not in the old table, represented by the first cpu that carries it, and appended entries come in order of first appearance. A table without repeated pairs stays without them. All of this holds even when record creation then fails |
| `Topology.Detach` | coretemp.c:242-256 | detach fails for any command but DDI_DETACH and deletes nothing; otherwise it deletes record slots 0 .. ncpus-1 |
| `KStat.LookupFrom` | coretempstat.c:149-152 | kstat_lookup finds the first record with equal module and name whose instance matches, -1 matching any, or none |
| `KStat.FieldFrom` | coretempstat.c:159-160 | the search finds the first field with the requested name, or none |
| `KStat.AsLong` | coretempstat.c:161-176 | the four integer types convert to `long` (unsigned 64-bit wraps), any other type gives -1 |
| `KStat.GetKStatNumber` | coretempstat.c:142-181 | -1 when no record matches, when the record cannot be read, or when it has no such field; otherwise the value of the first field with that name. The instance is a parameter: the reporter always passes -1 (coretempstat.c:149), which matches any instance, so against the driver's records it would find the first one. `ReadBack` and `ChainReadBack` look up instance i, which the reporter never does |
| `Publication.Fields` | coretemp.c:59-78 | the record holds the eight ctemp_kstat_t fields in declaration order, each INT32 |
| `Publication.Published` | coretemp.c:218-236 | each core's record is module "coretemp", its instance number, name "coretemp"; it can be read exactly when the refresh callback returns 0 (coretemp.c:113-125) |
| `Publication.ReadBack` | coretemp.c:59-78 | after a successful refresh, a reader that asks the record for any of the eight fields gets the value the refresh wrote |
| `Publication.UnsupportedReadsMinusOne` | coretemp.c:122-124 | without the MSR feature the refresh fails with ENXIO, so getKStatNumber (coretempstat.c:154-155) reads -1 for every field, not the cleared valid flag |
| `Publication.Chain` | coretemp.c:217-238 | one record per core table entry; looking up instance i finds position i; record i is readable iff the refresh for entry i's cpu (its ks_private) succeeds, and holds that refresh's fields |
| `Publication.ChainReadBack` | coretemp.c:218-237 | instance i of the installed records reads back every field the refresh of core table entry i's cpu wrote, or -1 for every field when that refresh failed |
| `CoreTempStat.ParseArgs` | coretempstat.c:37-46 | machine-readable mode iff the first argument is exactly "-p"; the cpu argument is atoi of the second argument whenever there is one, else -1 |
| `CoreTempStat.ParseSelectsCpu` | coretempstat.c:39-45 | `-p N` selects machine mode and cpu N for every N that `%d` can write |
| `CoreTempStat.KStatNameInjective` | coretempstat.c:51-52 | different cpu indices get different record names |
| `CoreTempStat.ReadWithoutInfo` | coretempstat.c:149-152 | without any record of module "cpu_info" every read gives -1 |
| `CoreTempStat.EnumerateFrom` | coretempstat.c:50-65 | cpus are taken in index order, each with the ids its record gives, until the first negative chip id or the end of the table |
| `CoreTempStat.Enumerate` | coretempstat.c:50-61 | cpu k of the table is cpu index k with its record's chip and core id, all chip ids are non-negative, and enumeration stops at the first negative chip id or at 1024 cpus |
| `CoreTempStat.SocketCount` | coretempstat.c:62-64 | the socket count exceeds every chip id and is one more than some chip id, or 0 with no cpus |
| `CoreTempStat.FirstMatchFrom` | coretempstat.c:76-82 | the inner search finds the first cpu with the given socket and core, or none |
| `CoreTempStat.FirstMatch` | coretempstat.c:75-82 | some cpu has the given socket and core iff the search finds the first such cpu |
| `CoreTempStat.MakeEntry` | coretempstat.c:94-107 | a printed core carries a package temperature exactly when its core id is 0 |
| `CoreTempStat.EntriesReadTemps` | coretempstat.c:94-107 | every printed core's record has a non-negative core_temp; the core temperature printed is that core_temp read, and the package temperature is the chip_temp read, both narrowed to int |
| `CoreTempStat.TheEntry` | coretempstat.c:84-96 | the core printed for a (socket, core) is the first cpu with that pair |
| `CoreTempStat.CoreEntries` | coretempstat.c:74-124 | within one socket, cores are printed in ascending core id below 1024, each once, exactly those whose first cpu has a non-negative core temperature |
| `CoreTempStat.SocketEntries` | coretempstat.c:72-125 | sockets are visited in ascending order, then cores, and every shown (socket, core) in range is printed |
| `CoreTempStat.Entries` | coretempstat.c:72-125 | the printed cores are strictly ordered by (socket, core), each is the first cpu of its pair with thermal monitoring, and every such pair below the socket count and core id 1024 is printed |
| `CoreTempStat.Displayed` | coretempstat.c:99-103 | a temperature is shown exactly when it is not negative |
| `CoreTempStat.LinesOf` | coretempstat.c:91-121 | machine mode prints only "index temp" or "temp" lines, one per core without a cpu argument and at most one per core with it; human mode prints only socket and core lines, one per core plus one header per core carrying a package temperature, and never shows a negative temperature |
| `CoreTempStat.Report` | coretempstat.c:25-131 | a failed kstat_open exits 1 and prints nothing; otherwise the exit code is 0. Human mode starts with the "Found" header, prints one core line per printed core and one socket line per entry with a package temperature (`HumanReport` shows those are the core-0 entries), and never shows a negative temperature. Machine mode prints only numeric lines, one per printed core without a cpu argument |
| `CoreTempStat.HumanListsAll` | coretempstat.c:94-114 | in human mode, the lines are those of the entries before k, then entry k's own lines, then those of the entries after it. The entries before k print k core lines plus one header per entry with a package temperature |
| `CoreTempStat.HumanLines` | coretempstat.c:98-113 | an entry prints its "\tCore #" line carrying the core temperature when that is not negative. An entry with a package temperature prints a "Socket #" line first, carrying the package temperature when that is not negative |
| `CoreTempStat.HumanReport` | coretempstat.c:68-114 | the human report is the "Found" header followed by the lines HumanListsAll describes for the printed cores, in printing order. The entries that get a "Socket #" line are exactly those of core 0 |
| `CoreTempStat.MachineListsAll` | coretempstat.c:116-117 | with no cpu argument, one "index temp" line per printed core, in order |
| `CoreTempStat.MachineSelects` | coretempstat.c:118-120 | with a cpu argument, only the core whose index matches prints, and nothing prints when none matches |
| `CoreTempStat.ListingReport` | coretempstat.c:116-117 | `coretempstat -p` lists every printed core as "index temp" in printing order |
| `CoreTempStat.EntriesDistinctCpus` | coretempstat.c:74-82 | two printed cores never stand for the same cpu |
| `CoreTempStat.SelectedCpuReport` | coretempstat.c:116-120 | `coretempstat -p N` prints nothing unless a printed core stands for cpu N, and then exactly that core's temperature |
| `CoreTempStat.SocketHeaderBeforeCoreZero` | coretempstat.c:94-114 | every socket header is immediately followed by the line of core 0 |
| `CoreTempStat.PackageOnlyForCoreZero` | coretempstat.c:94-96 | every printed core carries a package temperature exactly when its core id is 0 |
| `CoreTempStat.HumanReportHeaders` | coretempstat.c:94-114 | in the human report every socket header is followed at once by a core line for core 0. That it is the same socket's core 0 follows from `HumanReport` and `HumanLines` |
| `CoreTempStat.DriverChainInvisible` | coretempstat.c:54 | against the records the driver installs, the reporter enumerates no cpu and prints only "Found 0 CPUs in 0 sockets" |
| `CoreTempStat.RenderIsOneLine` | coretempstat.c:68-119 | every line `Render` prints ends with its newline and contains no other. `Content` holds the printf formats of coretempstat.c:68, 98-103, 109-113, 117 and 119 |
| `CoreTempStat.LinesOfAppend` | coretempstat.c:72-125 | the lines printed for two runs of entries are the lines of the first run followed by those of the second |
| `CoreTempStat.FoundLineExample` | coretempstat.c:68 | four cpus in one socket print "Found 4 CPUs in 1 socket" |
| `CoreTempStat.FoundOneCpuExample` | coretempstat.c:68 | one cpu in two sockets prints "Found 1 CPU in 2 sockets" |
| `CoreTempStat.HumanLineExample` | coretempstat.c:98-113 | a socket header without a temperature prints "Socket #1", and a core line without one prints "\tCore #2" |
| `CoreTempStat.CoreTempLineExample` | coretempstat.c:109-111 | a core line with a temperature prints "\tCore #3 temp : 58 °C" |
| `CoreTempStat.MachineLineExample` | coretempstat.c:117-119 | the machine formats print "7 58" and "-1" |
| `CoreTempStat.MachineLineParses` | coretempstat.c:117 | atoi reads the cpu index back from the start of an "index temp" line, and the temperature from after the index |
| `CoreTempStat.SelectedLineParses` | coretempstat.c:119 | atoi reads the temperature back from a "temp" line |
| `CoreTempStat.TempToStr` | coretempstat.c:134-140 | the text is "n/a" exactly for -1; any other temperature is written so that atoi reads it back |

## Left out

- Cross-cpu execution is not modelled: `ctemp_msr_req`, `ctemp_rdmsr`, `ctemp_cpuid`, `cpu_call`, `on_fault` and `checked_rdmsr`. Their results are inputs: the CPUID leaf 06H EAX word, and one `Option<bv32>` per MSR, where `None` is any read error.
- The topology queries `cpuid_getmodel`, `cpuid_get_chipid`, `cpuid_get_coreid`, `cpuid_get_pkgcoreid` and `cpuid_get_clogid` are inputs too. So are the CPUID and MSR feature bits and the vendor.
- kstat creation, installation and deletion, and the DDI and module glue (`ctemp_getinfo`, `_init`, `_fini`, `_info`), are host-framework calls. `Attach` takes the outcome of creating the records as a flag. `Detach` returns the slots it deletes.
- Topology.Detach: models the deletion loop as written: slots 0 .. ncpus-1, not 0 .. ncores-1. It does not model what `kstat_delete` does with a slot that was never filled.
- Topology.Attach: a failed `kstat_create` returns DDI_FAILURE after the table has been extended and earlier records installed. The model returns the extended table and does not model which records were installed.
- The kstat framework is not modelled. A record counts as readable exactly when its refresh callback returned 0, because a failing `ks_update` makes the reader's kstat_read fail.
- The shared `ctemp_kstat_t` buffer, `current_cpuid` and `ctemp_mutex` are not modelled; concurrency is out of scope. A refresh takes the buffer as a value and returns the new one.
- The kstat values are modelled as a fixed snapshot. Each of the reporter's reads sees the same records, whereas the real reads happen one after another on a changing system.
- The table bounds are not modelled. The driver's `cores` and `entries` arrays hold 1024 entries and the scan does not check that bound, so the model's table is unbounded. The reporter's own table stops at 1024 as in the source.
- `getKStatString` is not modelled; `main` never calls it.
- Only the text of each printed line is modelled, as `Render`. printf, perror and kstat_close are not modelled.
- The driver's `dev_err` console notes in ctemp_attach (coretemp.c:170-171, 179-180, 228) are not modelled. Only the DDI result they accompany is.
- The kstat class "environment" given to kstat_create is not modelled. A reader's lookup never uses it.
- `has_package_temp_monitor` (coretempstat.c:88) is computed but never used, so it has no counterpart.
- Decimal.Atoi: reads any number of digits with unbounded precision. C's atoi has undefined behaviour on overflow, so the model says nothing about inputs outside the int range.
- CoreTempStat.SocketCount: computed with unbounded integers. `chip_id + 1` overflows in C for chip id 2^31-1, which the model does not reproduce.
- Ints.Wrap32 and Ints.Signed64 assume the LP64 data model, in which `long` is 64 bits wide. The conversions at coretempstat.c:54 and 171-172 are modelled for that width only.
- Characters are Unicode code points. The degree sign is the single character U+00B0, not its two UTF-8 bytes.

=== FILE: coretemp.dfy ===
/** The coretemp driver's sensor decoder and the refresh callback of its
    kstat records.

    The cross-CPU register access (cpu_call + on_fault + checked_rdmsr) is
    replaced by its results: the CPUID leaf 06H EAX word and, for each of the
    three thermal MSRs, the EAX half of a successful read or `None` when the
    read fails.  The shared `ctemp_kstat_t` buffer is threaded through as a
    value: every step takes the buffer and returns the new one together with
    the MSR indices it tried to read. */
module CoreTemp {
  import opened Wrappers
  import opened Ints

  /* MSR indices */
  const MsrThermStatus: bv32 := 0x0000_019C
  const MsrPackageThermStatus: bv32 := 0x0000_01B1
  const MsrTemperatureTarget: bv32 := 0x0000_01A2

  /** Tj(max) assumed when the temperature-target MSR is not read */
  const DefaultTjMax: int := 100

  /** The eight named fields of one coretemp kstat, in publication order */
  datatype Stats = Stats(
    chipId: Int32,
    coreId: Int32,
    threadId: Int32,
    coreTemp: Int32,
    chipTemp: Int32,
    tjMax: Int32,
    targetTemp: Int32,
    valid: Int32)

  /** The fields the decoder owns */
  datatype Sensors = Sensors(coreTemp: int, chipTemp: int, tjMax: int, targetTemp: int, valid: int)

  function SensorsOf(s: Stats): Sensors {
    Sensors(s.coreTemp, s.chipTemp, s.tjMax, s.targetTemp, s.valid)
  }

  /** Outcome of each rdmsr: the EAX half when the read succeeded, `None`
      when the read reported an error. */
  datatype Msrs = Msrs(target: Option<bv32>, therm: Option<bv32>, pkgTherm: Option<bv32>)

  /** A buffer after one step, and the MSR indices the step tried to read */
  datatype Fill = Fill(stats: Stats, tried: seq<bv32>)

  datatype Vendor = VendorIntel | VendorOther

  datatype Status = Success | EAccess | ENxio | EInval

  datatype Access = KStatRead | KStatWrite

  /** What the topology queries report for the record's cpu */
  datatype CpuIds = CpuIds(pkgCoreId: Int32, chipId: Int32, clogId: Int32)

  /** What a refresh returns, leaves in the buffer and tried to read */
  datatype Update = Update(status: Status, stats: Stats, tried: seq<bv32>)

  /* --- CPUID leaf 06H EAX and MSR bit fields --- */

  /** EAX bit 0: digital thermal sensor */
  predicate HasDigitalSensor(cpuidEax: bv32) {
    cpuidEax & 0x01 != 0
  }

  /** EAX bit 6: package thermal management */
  predicate HasPackageSensor(cpuidEax: bv32) {
    (cpuidEax >> 6) & 0x01 != 0
  }

  /** IA32_THERM_STATUS bit 31: reading valid */
  predicate ReadingValid(thermEax: bv32) {
    thermEax & 0x8000_0000 != 0
  }

  /** Models whose temperature-target MSR the driver tried */
  predicate HasTemperatureTarget(model: int) {
    && model >= 0x0E
    && model != 0x1C && model != 0x26 && model != 0x27
    && model != 0x35 && model != 0x36
  }

  /** MSR_TEMPERATURE_TARGET bits 23:16 */
  function TjMaxField(eax: bv32): (t: int)
    ensures 0 <= t < 256
  {
    ((eax >> 16) & 0xFF) as int
  }

  /** MSR_TEMPERATURE_TARGET bits 15:8, the target's distance below Tj(max) */
  function TargetOffsetField(eax: bv32): (o: int)
    ensures 0 <= o < 256
  {
    ((eax >> 8) & 0xFF) as int
  }

  /** Thermal status bits 22:16, the reading's distance below Tj(max) */
  function ReadoutField(eax: bv32): (d: int)
    ensures 0 <= d < 128
  {
    ((eax >> 16) & 0x7F) as int
  }

  /** Temperature `delta` degrees below Tj(max), in the i32 field's width */
  function Below(tjMax: Int32, delta: int): (t: Int32)
    requires 0 <= delta < 256
    ensures tjMax >= Int32Min + 255 ==> t == tjMax - delta
  {
    Wrap32(tjMax - delta)
  }

  /* --- the decoder --- */

  /** The "unavailable" defaults written before any register is read */
  function Reset(s: Stats): (r: Stats)
    ensures SensorsOf(r) == Sensors(0, 0, DefaultTjMax, 0, 0)
    ensures r.chipId == s.chipId && r.coreId == s.coreId && r.threadId == s.threadId
  {
    s.(tjMax := 100, chipTemp := 0, coreTemp := 0, targetTemp := 0, valid := 0)
  }

  /** ctemp_fill_tj_max */
  function FillTjMax(model: int, target: Option<bv32>, s: Stats): (f: Fill)
    ensures f.tried == if HasTemperatureTarget(model) then [MsrTemperatureTarget] else []
    ensures f.stats.(tjMax := s.tjMax, targetTemp := s.targetTemp) == s
    ensures !HasTemperatureTarget(model) || target.None? ==> f.stats == s
    ensures HasTemperatureTarget(model) && target.Some? ==>
              && 0 <= f.stats.tjMax < 256
              && f.stats.tjMax - 255 <= f.stats.targetTemp <= f.stats.tjMax
  {
    if !HasTemperatureTarget(model) then Fill(s, [])
    else match target
      case None => Fill(s, [MsrTemperatureTarget])
      case Some(eax) =>
        var tj := TjMaxField(eax);
        var off := TargetOffsetField(eax);
        assert 0 <= tj < 256 && 0 <= off < 256;
        Fill(s.(tjMax := tj, targetTemp := tj - off), [MsrTemperatureTarget])
  }

  /** ctemp_fill_core_temp */
  function FillCoreTemp(cpuidEax: bv32, therm: Option<bv32>, s: Stats): (f: Fill)
    ensures f.tried == if HasDigitalSensor(cpuidEax) then [MsrThermStatus] else []
    ensures f.stats.(coreTemp := s.coreTemp, valid := s.valid) == s
    ensures HasDigitalSensor(cpuidEax) && therm.Some? && ReadingValid(therm.value) ==>
              && f.stats.valid == 1
              && (s.tjMax >= Int32Min + 255 ==> s.tjMax - 127 <= f.stats.coreTemp <= s.tjMax)
    ensures !(HasDigitalSensor(cpuidEax) && therm.Some? && ReadingValid(therm.value)) ==> f.stats == s
  {
    if !HasDigitalSensor(cpuidEax) then Fill(s, [])
    else match therm
      case None => Fill(s, [MsrThermStatus])
      case Some(eax) =>
        if ReadingValid(eax) then
          var delta := ReadoutField(eax);
          assert 0 <= delta < 128;
          Fill(s.(coreTemp := Below(s.tjMax, delta), valid := 1), [MsrThermStatus])
        else Fill(s, [MsrThermStatus])
  }

  /** ctemp_fill_pkg_temp */
  function FillPkgTemp(cpuidEax: bv32, pkgTherm: Option<bv32>, s: Stats): (f: Fill)
    ensures f.tried == if HasPackageSensor(cpuidEax) then [MsrPackageThermStatus] else []
    ensures f.stats.(chipTemp := s.chipTemp) == s
    ensures !(HasPackageSensor(cpuidEax) && pkgTherm.Some?) ==> f.stats.chipTemp == s.coreTemp
    ensures HasPackageSensor(cpuidEax) && pkgTherm.Some? && s.tjMax >= Int32Min + 255 ==>
              s.tjMax - 127 <= f.stats.chipTemp <= s.tjMax
  {
    var s1 := s.(chipTemp := s.coreTemp);
    if !HasPackageSensor(cpuidEax) then Fill(s1, [])
    else match pkgTherm
      case None => Fill(s1, [MsrPackageThermStatus])
      case Some(eax) =>
        var delta := ReadoutField(eax);
        assert 0 <= delta < 128;
        Fill(s1.(chipTemp := Below(s.tjMax, delta)), [MsrPackageThermStatus])
  }

  /** intel_fill_fields: reset to the defaults, then Tj(max), then the core
      reading, then the package reading. */
  function IntelFillFields(model: int, cpuidEax: bv32, msrs: Msrs, s: Stats): (f: Fill)
    ensures f.stats.chipId == s.chipId && f.stats.coreId == s.coreId && f.stats.threadId == s.threadId
    ensures 0 <= f.stats.tjMax < 256
    ensures f.stats.tjMax - 255 <= f.stats.targetTemp <= f.stats.tjMax
    ensures !HasTemperatureTarget(model) || msrs.target.None? ==>
              f.stats.tjMax == DefaultTjMax && f.stats.targetTemp == 0
    ensures f.stats.valid == 0 || f.stats.valid == 1
    ensures f.stats.valid == 1 <==>
              HasDigitalSensor(cpuidEax) && msrs.therm.Some? && ReadingValid(msrs.therm.value)
    ensures f.stats.valid == 1 ==> f.stats.tjMax - 127 <= f.stats.coreTemp <= f.stats.tjMax
    ensures f.stats.valid == 0 ==> f.stats.coreTemp == 0
    ensures !(HasPackageSensor(cpuidEax) && msrs.pkgTherm.Some?) ==> f.stats.chipTemp == f.stats.coreTemp
    ensures HasPackageSensor(cpuidEax) && msrs.pkgTherm.Some? ==>
              f.stats.tjMax - 127 <= f.stats.chipTemp <= f.stats.tjMax
    ensures f.tried ==
              (if HasTemperatureTarget(model) then [MsrTemperatureTarget] else [])
              + (if HasDigitalSensor(cpuidEax) then [MsrThermStatus] else [])
              + (if HasPackageSensor(cpuidEax) then [MsrPackageThermStatus] else [])
  {
    var t := FillTjMax(model, msrs.target, Reset(s));
    var c := FillCoreTemp(cpuidEax, msrs.therm, t.stats);
    var p := FillPkgTemp(cpuidEax, msrs.pkgTherm, c.stats);
    Fill(p.stats, t.tried + c.tried + p.tried)
  }

  /** ctemp_fill_fields: the Intel case falls through into the
      "not implemented" return, so the status is EINVAL on every path. */
  function CtempFillFields(vendor: Vendor, model: int, cpuidEax: bv32, msrs: Msrs, s: Stats): (u: Update)
    ensures u.status == EInval
    ensures vendor == VendorIntel ==> Fill(u.stats, u.tried) == IntelFillFields(model, cpuidEax, msrs, s)
    ensures vendor != VendorIntel ==> u.stats == s && u.tried == []
  {
    match vendor
    case VendorIntel =>
      var f := IntelFillFields(model, cpuidEax, msrs, s);
      Update(EInval, f.stats, f.tried)
    case VendorOther => Update(EInval, s, [])
  }

  /** ctemp_kstat_update: the refresh callback of every coretemp record.
      `msrFeature` is the MSR bit of the x86 feature set; `ids` what the
      topology queries report for the record's cpu. */
  function KStatUpdate(rw: Access, msrFeature: bool, vendor: Vendor, model: int, cpuidEax: bv32,
                       msrs: Msrs, ids: CpuIds, s: Stats): (u: Update)
    ensures rw == KStatWrite ==> u == Update(EAccess, s, [])
    ensures rw == KStatRead && !msrFeature ==> u == Update(ENxio, s.(valid := 0), [])
    ensures rw == KStatRead && msrFeature ==>
              && u.status == Success
              && u.stats.coreId == ids.pkgCoreId
              && u.stats.chipId == ids.chipId
              && u.stats.threadId == ids.clogId
    ensures rw == KStatRead && msrFeature && vendor == VendorIntel ==>
              Fill(u.stats.(chipId := s.chipId, coreId := s.coreId, threadId := s.threadId), u.tried)
              == IntelFillFields(model, cpuidEax, msrs, s)
    ensures rw == KStatRead && vendor != VendorIntel ==> u.tried == [] && u.stats.valid == 0
    ensures u.tried != [] ==> rw == KStatRead && msrFeature && vendor == VendorIntel
  {
    match rw
    case KStatWrite => Update(EAccess, s, [])
    case KStatRead =>
      var cleared := s.(valid := 0);
      if !msrFeature then Update(ENxio, cleared, [])
      else
        var filled := CtempFillFields(vendor, model, cpuidEax, msrs, cleared);
        Update(Success, filled.stats.(coreId := ids.pkgCoreId, chipId := ids.chipId, threadId := ids.clogId),
               filled.tried)
  }

  /* --- properties of the decoder --- */

  /** The decoder's result stated field by field from the register layouts
      (Intel SDM Vol. 3B chapter 14): Tj(max) from the temperature target
      when it may be read, the core reading only when its valid bit is set,
      the package reading whenever it can be read, else the core's. */
  function Reference(model: int, cpuidEax: bv32, msrs: Msrs): Sensors {
    var tj := if HasTemperatureTarget(model) && msrs.target.Some?
              then TjMaxField(msrs.target.value) else DefaultTjMax;
    var target := if HasTemperatureTarget(model) && msrs.target.Some?
                  then tj - TargetOffsetField(msrs.target.value) else 0;
    var valid := HasDigitalSensor(cpuidEax) && msrs.therm.Some? && ReadingValid(msrs.therm.value);
    var core := if valid then tj - ReadoutField(msrs.therm.value) else 0;
    var chip := if HasPackageSensor(cpuidEax) && msrs.pkgTherm.Some?
                then tj - ReadoutField(msrs.pkgTherm.value) else core;
    Sensors(core, chip, tj, target, if valid then 1 else 0)
  }

  /** Resetting, then filling Tj(max), the core and the package in turn
      yields the field-by-field reading. */
  lemma DecoderMatchesReference(model: int, cpuidEax: bv32, msrs: Msrs, s: Stats)
    ensures SensorsOf(IntelFillFields(model, cpuidEax, msrs, s).stats) == Reference(model, cpuidEax, msrs)
  {
  }

  /** Nothing left in the buffer by an earlier refresh reaches the decoded
      fields. */
  lemma FreshDefaults(model: int, cpuidEax: bv32, msrs: Msrs, s1: Stats, s2: Stats)
    ensures SensorsOf(IntelFillFields(model, cpuidEax, msrs, s1).stats)
            == SensorsOf(IntelFillFields(model, cpuidEax, msrs, s2).stats)
  {
    DecoderMatchesReference(model, cpuidEax, msrs, s1);
    DecoderMatchesReference(model, cpuidEax, msrs, s2);
  }

  /** Two refreshes over unchanged hardware leave the same record */
  lemma RefreshIdempotent(rw: Access, msrFeature: bool, vendor: Vendor, model: int, cpuidEax: bv32,
                          msrs: Msrs, ids: CpuIds, s: Stats)
    ensures var u := KStatUpdate(rw, msrFeature, vendor, model, cpuidEax, msrs, ids, s);
            KStatUpdate(rw, msrFeature, vendor, model, cpuidEax, msrs, ids, u.stats) == u
  {
    var u := KStatUpdate(rw, msrFeature, vendor, model, cpuidEax, msrs, ids, s);
    if rw == KStatRead && msrFeature && vendor == VendorIntel {
      FreshDefaults(model, cpuidEax, msrs, s.(valid := 0), u.stats.(valid := 0));
    }
  }

  /** A failed temperature-target read leaves Tj(max) at 100 and the target
      at 0, and the core reading is still taken, against 100. */
  lemma TargetFaultIsolated(model: int, cpuidEax: bv32, msrs: Msrs, s: Stats)
    ensures var a := IntelFillFields(model, cpuidEax, msrs, s).stats;
            var b := IntelFillFields(model, cpuidEax, msrs.(target := None), s).stats;
            && b.tjMax == DefaultTjMax && b.targetTemp == 0
            && b.valid == a.valid
            && (b.valid == 1 ==> b.coreTemp == DefaultTjMax - ReadoutField(msrs.therm.value))
  {
    DecoderMatchesReference(model, cpuidEax, msrs, s);
    DecoderMatchesReference(model, cpuidEax, msrs.(target := None), s);
  }

  /** A failed thermal-status read loses the core reading only */
  lemma ThermFaultIsolated(model: int, cpuidEax: bv32, msrs: Msrs, s: Stats)
    ensures var a := IntelFillFields(model, cpuidEax, msrs, s).stats;
            var b := IntelFillFields(model, cpuidEax, msrs.(therm := None), s).stats;
            && b.tjMax == a.tjMax && b.targetTemp == a.targetTemp
            && b.valid == 0 && b.coreTemp == 0
            && (HasPackageSensor(cpuidEax) && msrs.pkgTherm.Some? ==> b.chipTemp == a.chipTemp)
  {
    DecoderMatchesReference(model, cpuidEax, msrs, s);
    DecoderMatchesReference(model, cpuidEax, msrs.(therm := None), s);
  }

  /** A failed package read changes only the package temperature, which
      falls back to the core's. */
  lemma PackageFaultIsolated(model: int, cpuidEax: bv32, msrs: Msrs, s: Stats)
    ensures var a := IntelFillFields(model, cpuidEax, msrs, s).stats;
            var b := IntelFillFields(model, cpuidEax, msrs.(pkgTherm := None), s).stats;
            && b.(chipTemp := a.chipTemp) == a
            && b.chipTemp == b.coreTemp
  {
    DecoderMatchesReference(model, cpuidEax, msrs, s);
    DecoderMatchesReference(model, cpuidEax, msrs.(pkgTherm := None), s);
  }

  /** A model-3AH part with both sensors: target 0x00640A00 gives Tj(max)
      100 and target 90; a valid core reading 42 below gives 58; a package
      reading 48 below gives 52. */
  lemma DecodeExample(s: Stats)
    ensures IntelFillFields(0x3A, 0x41, Msrs(Some(0x0064_0A00), Some(0x882A_0000), Some(0x8830_0000)), s)
            == Fill(s.(tjMax := 100, targetTemp := 90, coreTemp := 58, chipTemp := 52, valid := 1),
                    [MsrTemperatureTarget, MsrThermStatus, MsrPackageThermStatus])
  {
  }

  /** Tj(max) is the whole 8-bit field: a target of 0x00A00A00 (bit 23 set)
      gives Tj(max) 160 and target 150, and the readings are taken
      against 160. */
  lemma HighTjMaxExample(s: Stats)
    ensures TjMaxField(0x00A0_0000) == 160
    ensures IntelFillFields(0x3A, 0x41, Msrs(Some(0x00A0_0A00), Some(0x882A_0000), Some(0x8830_0000)), s)
            == Fill(s.(tjMax := 160, targetTemp := 150, coreTemp := 118, chipTemp := 112, valid := 1),
                    [MsrTemperatureTarget, MsrThermStatus, MsrPackageThermStatus])
  {
  }

  /** Each field is exactly its bit range: all ones inside the range read
      as the field's maximum, all ones outside it read as 0. */
  lemma FieldMasksExample()
    ensures TjMaxField(0x00FF_0000) == 255 && TjMaxField(0xFF00_FFFF) == 0
    ensures TargetOffsetField(0x0000_FF00) == 255 && TargetOffsetField(0xFFFF_00FF) == 0
    ensures ReadoutField(0x007F_0000) == 127 && ReadoutField(0xFF80_FFFF) == 0
  {
  }

  /** The models excluded from the temperature-target read keep Tj(max) at
      100 whatever that register would hold. */
  lemma ExcludedModelExample(eax: bv32, msrs: Msrs, s: Stats)
    ensures IntelFillFields(0x1C, eax, msrs, s).stats.tjMax == DefaultTjMax
    ensures MsrTemperatureTarget !in IntelFillFields(0x1C, eax, msrs, s).tried
  {
  }
}

=== FILE: coretempstat.dfy ===
/** coretempstat, the reporter: it reads the per-cpu kstats, groups the
    cpus by socket and core, and prints one line per core (and a header
    per socket), either for people or, with -p, as numbers for scripts.
    The kstat chain is a value; printing is a list of lines, and the
    exact text of each line is given by Render. */
module CoreTempStat {
  import opened Wrappers
  import opened Ints
  import opened Decimal
  import opened KStat
  import Publication
  import CoreTemp
  import Topology

  /** Size of the reporter's cpu table, and the bound of its core-id scan */
  const MaxCpus: nat := 1024

  /** The kstat module the reporter asks for */
  const InfoModule: string := "cpu_info"

  // ---------------------------------------------------------------------
  // Arguments

  datatype Args = Args(machineReadable: bool, displayCpu: int)

  /** argv[0] is the program name.  "-p" as the first argument selects
      machine-readable output; any second argument is read with atoi as
      the one cpu index to report, whatever the first argument was. */
  function ParseArgs(argv: seq<string>): (a: Args)
    ensures a.machineReadable <==> |argv| > 1 && argv[1] == "-p"
    ensures |argv| > 2 ==> a.displayCpu == Atoi(argv[2])
    ensures |argv| <= 2 ==> a.displayCpu == -1
  {
    Args(|argv| > 1 && argv[1] == "-p", if |argv| > 2 then Atoi(argv[2]) else -1)
  }

  /** `coretempstat -p N` selects cpu N, for every N the `%d` conversion
      can write */
  lemma ParseSelectsCpu(prog: string, n: int)
    ensures ParseArgs([prog, "-p", IntToString(n)]) == Args(true, n)
  {
    AtoiIntToString(n, []);
    assert IntToString(n) + [] == IntToString(n);
  }

  // ---------------------------------------------------------------------
  // Reading the kstats

  /** The record name for cpu `i`: sprintf("coretemp%d", i) */
  function KStatName(i: int): (name: string)
  {
    "coretemp" + IntToString(i)
  }

  lemma KStatNameInjective(i: int, j: int)
    requires KStatName(i) == KStatName(j)
    ensures i == j
  {
    assert KStatName(i)[8..] == IntToString(i);
    assert KStatName(j)[8..] == IntToString(j);
    IntToStringInjective(i, j);
  }

  /** getKStatNumber(kstat, "cpu_info", "coretemp<i>", field) */
  function Read(chain: seq<Record>, i: int, field: string): (v: Int64)
  {
    GetKStatNumber(chain, InfoModule, -1, KStatName(i), field)
  }

  /** With no record of module "cpu_info" in the chain every read fails */
  lemma ReadWithoutInfo(chain: seq<Record>, i: int, field: string)
    requires forall k | 0 <= k < |chain| :: chain[k].modName != InfoModule
    ensures Read(chain, i, field) == -1
  {
  }

  // ---------------------------------------------------------------------
  // Enumeration

  datatype CpuInfo = CpuInfo(cpuIndex: nat, chipId: Int32, coreId: Int32)

  /** `int chip_id = getKStatNumber(..., "chip_id")` for cpu `i` */
  function ChipAt(chain: seq<Record>, i: int): Int32 {
    Wrap32(Read(chain, i, "chip_id"))
  }

  /** `int core_id = getKStatNumber(..., "core_id")` for cpu `i` */
  function CoreAt(chain: seq<Record>, i: int): Int32 {
    Wrap32(Read(chain, i, "core_id"))
  }

  /** A table entry holds what its cpu's record says, and only cpus
      with a non-negative chip id get one */
  predicate IsEntry(chain: seq<Record>, c: CpuInfo) {
    && c.chipId == ChipAt(chain, c.cpuIndex)
    && c.coreId == CoreAt(chain, c.cpuIndex)
    && c.chipId >= 0
  }

  /** What the enumeration loop reads for one cpu */
  datatype Probe = Probe(chipId: Int32, coreId: Int32)

  /** The reads for every cpu the table has room for */
  function Probes(chain: seq<Record>): seq<Probe>
  {
    seq(MaxCpus, i requires 0 <= i < MaxCpus => Probe(ChipAt(chain, i), CoreAt(chain, i)))
  }

  /** The enumeration loop from cpu `i` on: cpus are taken in index order
      until the first whose chip id, as an int, is negative (a missing
      record reads as -1), or until the table is full */
  function EnumerateFrom(ps: seq<Probe>, i: nat): (cpus: seq<CpuInfo>)
    requires i <= |ps|
    ensures |cpus| <= |ps| - i
    ensures forall k | 0 <= k < |cpus| ::
              cpus[k] == CpuInfo(i + k, ps[i + k].chipId, ps[i + k].coreId) && ps[i + k].chipId >= 0
    ensures i + |cpus| < |ps| ==> ps[i + |cpus|].chipId < 0
    decreases |ps| - i
  {
    if i == |ps| || ps[i].chipId < 0 then []
    else
      var rest := EnumerateFrom(ps, i + 1);
      var cpus := [CpuInfo(i, ps[i].chipId, ps[i].coreId)] + rest;
      assert forall k | 1 <= k < |cpus| :: cpus[k] == rest[k - 1];
      assert i + |cpus| == (i + 1) + |rest|;
      cpus
  }

  function Enumerate(chain: seq<Record>): (cpus: seq<CpuInfo>)
    ensures |cpus| <= MaxCpus
    ensures forall k | 0 <= k < |cpus| :: cpus[k].cpuIndex == k && IsEntry(chain, cpus[k])
    ensures |cpus| < MaxCpus ==> ChipAt(chain, |cpus|) < 0
  {
    EnumerateFrom(Probes(chain), 0)
  }

  /** cpu_sockets: one more than the largest chip id, 0 with no cpus */
  function SocketCount(cpus: seq<CpuInfo>): (n: int)
    ensures n >= 0
    ensures forall k | 0 <= k < |cpus| :: cpus[k].chipId < n
    ensures n > 0 ==> exists k | 0 <= k < |cpus| :: cpus[k].chipId + 1 == n
    ensures (forall k | 0 <= k < |cpus| :: cpus[k].chipId >= 0) ==> (n == 0 <==> cpus == [])
    decreases |cpus|
  {
    if cpus == [] then 0
    else
      var init := cpus[..|cpus| - 1];
      var n := SocketCount(init);
      var c := cpus[|cpus| - 1].chipId;
      assert forall k | 0 <= k < |init| :: init[k] == cpus[k];
      if c + 1 > n then c + 1 else n
  }

  // ---------------------------------------------------------------------
  // Grouping by socket and core

  /** `k` is the first cpu of the table on chip `socket` with core id `core` */
  predicate IsFirstCpu(cpus: seq<CpuInfo>, k: int, socket: int, core: int) {
    && 0 <= k < |cpus|
    && cpus[k].chipId == socket && cpus[k].coreId == core
    && forall k' | 0 <= k' < k :: !(cpus[k'].chipId == socket && cpus[k'].coreId == core)
  }

  /** The innermost search loop, from position `i` on */
  function FirstMatchFrom(cpus: seq<CpuInfo>, i: nat, socket: int, core: int): (r: Option<nat>)
    requires i <= |cpus|
    ensures r.Some? ==> i <= r.value < |cpus| && cpus[r.value].chipId == socket && cpus[r.value].coreId == core
    ensures r.Some? ==> forall k | i <= k < r.value :: !(cpus[k].chipId == socket && cpus[k].coreId == core)
    ensures r.None? ==> forall k | i <= k < |cpus| :: !(cpus[k].chipId == socket && cpus[k].coreId == core)
    decreases |cpus| - i
  {
    if i == |cpus| then None
    else if cpus[i].chipId == socket && cpus[i].coreId == core then Some(i)
    else FirstMatchFrom(cpus, i + 1, socket, core)
  }

  function FirstMatch(cpus: seq<CpuInfo>, socket: int, core: int): (r: Option<nat>)
    ensures r.Some? <==> exists k | 0 <= k < |cpus| :: cpus[k].chipId == socket && cpus[k].coreId == core
    ensures r.Some? ==> IsFirstCpu(cpus, r.value, socket, core)
  {
    FirstMatchFrom(cpus, 0, socket, core)
  }

  /** What the reporter prints for one physical core: the cpu that stands
      for it, its core temperature and, for core 0, its package
      temperature, each truncated to an int */
  datatype Entry = Entry(cpu: CpuInfo, coreTemp: Int32, packageTemp: Option<Int32>)

  function MakeEntry(chain: seq<Record>, c: CpuInfo): (e: Entry)
    ensures e.cpu == c
    ensures e.packageTemp.Some? <==> c.coreId == 0
  {
    Entry(c, Wrap32(Read(chain, c.cpuIndex, "core_temp")),
          if c.coreId == 0 then Some(Wrap32(Read(chain, c.cpuIndex, "chip_temp"))) else None)
  }

  /** (socket, core) is printed: some cpu has it, and the first such cpu
      has thermal monitoring (its core_temp, as a long, is not negative) */
  predicate Shown(chain: seq<Record>, cpus: seq<CpuInfo>, socket: int, core: int) {
    var m := FirstMatch(cpus, socket, core);
    m.Some? && Read(chain, cpus[m.value].cpuIndex, "core_temp") >= 0
  }

  /** The entry printed for a shown (socket, core) */
  function TheEntry(chain: seq<Record>, cpus: seq<CpuInfo>, socket: int, core: int): (e: Entry)
    requires Shown(chain, cpus, socket, core)
    ensures e.cpu.chipId == socket && e.cpu.coreId == core
    ensures exists k :: IsFirstCpu(cpus, k, socket, core) && e.cpu == cpus[k]
  {
    var k := FirstMatch(cpus, socket, core).value;
    MakeEntry(chain, cpus[k])
  }

  /** Sockets first, then cores */
  predicate Precedes(a: Entry, b: Entry) {
    a.cpu.chipId < b.cpu.chipId || (a.cpu.chipId == b.cpu.chipId && a.cpu.coreId < b.cpu.coreId)
  }

  predicate Ordered(es: seq<Entry>) {
    forall i, j | 0 <= i < j < |es| :: Precedes(es[i], es[j])
  }

  /** Every entry is the one printed for its (socket, core) */
  predicate Genuine(chain: seq<Record>, cpus: seq<CpuInfo>, e: Entry) {
    Shown(chain, cpus, e.cpu.chipId, e.cpu.coreId) && e == TheEntry(chain, cpus, e.cpu.chipId, e.cpu.coreId)
  }

  /** The core loop for `socket`, from core id `core` up to MaxCpus */
  function CoreEntries(chain: seq<Record>, cpus: seq<CpuInfo>, socket: int, core: nat): (es: seq<Entry>)
    requires core <= MaxCpus
    ensures Ordered(es)
    ensures forall e | e in es ::
              e.cpu.chipId == socket && core <= e.cpu.coreId < MaxCpus && Genuine(chain, cpus, e)
    ensures forall c | core <= c < MaxCpus && Shown(chain, cpus, socket, c) ::
              exists e | e in es :: e.cpu.coreId == c
    decreases MaxCpus - core, 1
  {
    if core == MaxCpus then []
    else
      var rest := CoreEntries(chain, cpus, socket, core + 1);
      if Shown(chain, cpus, socket, core) then
        var e := TheEntry(chain, cpus, socket, core);
        ConsOrdered(e, rest);
        CoresGenuine(chain, cpus, socket, core);
        CoresCovered(chain, cpus, socket, core);
        [e] + rest
      else rest
  }

  /** The first entry and the later ones are all genuine entries of this socket */
  lemma CoresGenuine(chain: seq<Record>, cpus: seq<CpuInfo>, socket: int, core: nat)
    requires core < MaxCpus && Shown(chain, cpus, socket, core)
    ensures forall e | e in [TheEntry(chain, cpus, socket, core)] + CoreEntries(chain, cpus, socket, core + 1) ::
              e.cpu.chipId == socket && core <= e.cpu.coreId < MaxCpus && Genuine(chain, cpus, e)
    decreases MaxCpus - core, 0
  {
    var first := TheEntry(chain, cpus, socket, core);
    var rest := CoreEntries(chain, cpus, socket, core + 1);
    forall e | e in [first] + rest
      ensures e.cpu.chipId == socket && core <= e.cpu.coreId < MaxCpus && Genuine(chain, cpus, e)
    {
      if e != first {
        assert e in rest;
      }
    }
  }

  /** A shown core of this socket is the first entry or among the later ones */
  lemma CoresCovered(chain: seq<Record>, cpus: seq<CpuInfo>, socket: int, core: nat)
    requires core < MaxCpus && Shown(chain, cpus, socket, core)
    ensures forall c | core <= c < MaxCpus && Shown(chain, cpus, socket, c) ::
              exists e: Entry | e in [TheEntry(chain, cpus, socket, core)] + CoreEntries(chain, cpus, socket, core + 1) ::
                e.cpu.coreId == c
    decreases MaxCpus - core, 0
  {
    var first := TheEntry(chain, cpus, socket, core);
    var rest := CoreEntries(chain, cpus, socket, core + 1);
    forall c | core <= c < MaxCpus && Shown(chain, cpus, socket, c)
      ensures exists e: Entry | e in [first] + rest :: e.cpu.coreId == c
    {
      if c == core {
        assert first in [first] + rest;
      } else {
        var e :| e in rest && e.cpu.coreId == c;
        assert e in [first] + rest;
      }
    }
  }

  /** The socket loop, from `socket` up to `sockets` */
  function SocketEntries(chain: seq<Record>, cpus: seq<CpuInfo>, socket: nat, sockets: int): (es: seq<Entry>)
    ensures Ordered(es)
    ensures forall e | e in es ::
              socket <= e.cpu.chipId < sockets && 0 <= e.cpu.coreId < MaxCpus && Genuine(chain, cpus, e)
    ensures forall s, c | socket <= s < sockets && 0 <= c < MaxCpus && Shown(chain, cpus, s, c) ::
              exists e | e in es :: e.cpu.chipId == s && e.cpu.coreId == c
    decreases sockets - socket, 1
  {
    if socket >= sockets then []
    else
      var here := CoreEntries(chain, cpus, socket, 0);
      var rest := SocketEntries(chain, cpus, socket + 1, sockets);
      assert forall i | 0 <= i < |here| :: here[i] in here;
      assert forall j | 0 <= j < |rest| :: rest[j] in rest;
      ConcatOrdered(here, rest);
      SocketsCovered(chain, cpus, socket, sockets);
      here + rest
  }

  /** A shown (socket, core) is found in this socket's entries or in the
      later sockets' */
  lemma SocketsCovered(chain: seq<Record>, cpus: seq<CpuInfo>, socket: nat, sockets: int)
    requires socket < sockets
    ensures forall s, c | socket <= s < sockets && 0 <= c < MaxCpus && Shown(chain, cpus, s, c) ::
              exists e: Entry | e in CoreEntries(chain, cpus, socket, 0) + SocketEntries(chain, cpus, socket + 1, sockets) ::
                e.cpu.chipId == s && e.cpu.coreId == c
    decreases sockets - socket, 0
  {
    var here := CoreEntries(chain, cpus, socket, 0);
    var rest := SocketEntries(chain, cpus, socket + 1, sockets);
    forall s, c | socket <= s < sockets && 0 <= c < MaxCpus && Shown(chain, cpus, s, c)
      ensures exists e: Entry | e in here + rest :: e.cpu.chipId == s && e.cpu.coreId == c
    {
      if s == socket {
        var e :| e in here && e.cpu.coreId == c;
        assert e in here + rest;
      } else {
        var e :| e in rest && e.cpu.chipId == s && e.cpu.coreId == c;
        assert e in here + rest;
      }
    }
  }

  lemma ConsOrdered(e: Entry, es: seq<Entry>)
    requires Ordered(es)
    requires forall j | 0 <= j < |es| :: Precedes(e, es[j])
    ensures Ordered([e] + es)
  {
    forall i, j | 0 <= i < j < |[e] + es|
      ensures Precedes(([e] + es)[i], ([e] + es)[j])
    {
      assert ([e] + es)[j] == es[j - 1];
      if i > 0 {
        assert ([e] + es)[i] == es[i - 1];
      }
    }
  }

  lemma ConcatOrdered(xs: seq<Entry>, ys: seq<Entry>)
    requires Ordered(xs) && Ordered(ys)
    requires forall i, j | 0 <= i < |xs| && 0 <= j < |ys| :: Precedes(xs[i], ys[j])
    ensures Ordered(xs + ys)
  {
  }

  /** Every (socket, core) the reporter prints, in printing order */
  function Entries(chain: seq<Record>, cpus: seq<CpuInfo>): (es: seq<Entry>)
    ensures Ordered(es)
    ensures forall e | e in es :: 0 <= e.cpu.coreId < MaxCpus && Genuine(chain, cpus, e)
    ensures forall s, c | 0 <= s < SocketCount(cpus) && 0 <= c < MaxCpus && Shown(chain, cpus, s, c) ::
              exists e | e in es :: e.cpu.chipId == s && e.cpu.coreId == c
  {
    SocketEntries(chain, cpus, 0, SocketCount(cpus))
  }

  /** Every printed core has a non-negative core_temp, and its
      temperatures are its record's core_temp and chip_temp reads narrowed
      to int */
  lemma EntriesReadTemps(chain: seq<Record>, cpus: seq<CpuInfo>)
    ensures forall e | e in Entries(chain, cpus) ::
              && Read(chain, e.cpu.cpuIndex, "core_temp") >= 0
              && e.coreTemp == Wrap32(Read(chain, e.cpu.cpuIndex, "core_temp"))
              && (e.packageTemp.Some? ==>
                    e.packageTemp.value == Wrap32(Read(chain, e.cpu.cpuIndex, "chip_temp")))
  {
    forall e | e in Entries(chain, cpus)
      ensures Read(chain, e.cpu.cpuIndex, "core_temp") >= 0
      ensures e.coreTemp == Wrap32(Read(chain, e.cpu.cpuIndex, "core_temp"))
      ensures e.packageTemp.Some? ==>
                e.packageTemp.value == Wrap32(Read(chain, e.cpu.cpuIndex, "chip_temp"))
    {
      assert Genuine(chain, cpus, e);
    }
  }

  // ---------------------------------------------------------------------
  // Output

  datatype Line =
    | Found(cpus: int, sockets: int)
    | SocketLine(chip: int, temp: Option<int>)
    | CoreLine(core: int, temp: Option<int>)
    | IndexTemp(index: int, value: int)
    | TempOnly(value: int)

  /** A temperature is printed only when it is not negative */
  function Displayed(t: Int32): (r: Option<int>)
    ensures r.Some? <==> t >= 0
    ensures r.Some? ==> r.value == t
  {
    if t >= 0 then Some(t) else None
  }

  function HumanLines(e: Entry): (ls: seq<Line>)
    ensures e.packageTemp.None? ==> ls == [CoreLine(e.cpu.coreId, Displayed(e.coreTemp))]
    ensures e.packageTemp.Some? ==>
              ls == [SocketLine(e.cpu.chipId, Displayed(e.packageTemp.value)),
                     CoreLine(e.cpu.coreId, Displayed(e.coreTemp))]
  {
    (if e.packageTemp.Some? then [SocketLine(e.cpu.chipId, Displayed(e.packageTemp.value))] else [])
    + [CoreLine(e.cpu.coreId, Displayed(e.coreTemp))]
  }

  function MachineLines(displayCpu: int, e: Entry): (ls: seq<Line>)
  {
    if displayCpu == -1 then [IndexTemp(e.cpu.cpuIndex, e.coreTemp)]
    else if displayCpu == e.cpu.cpuIndex then [TempOnly(e.coreTemp)]
    else []
  }

  function EntryLines(args: Args, e: Entry): seq<Line> {
    if args.machineReadable then MachineLines(args.displayCpu, e) else HumanLines(e)
  }

  /** A human-mode line never shows a negative temperature */
  predicate NoNegativeShown(l: Line) {
    (l.SocketLine? || l.CoreLine?) && l.temp.Some? ==> l.temp.value >= 0
  }

  predicate IsMachineLine(l: Line) {
    l.IndexTemp? || l.TempOnly?
  }

  /** How many of the entries carry a package temperature, i.e. how many
      socket headers human mode prints for them */
  function HeaderCount(es: seq<Entry>): (n: nat)
    ensures n <= |es|
    decreases |es|
  {
    if es == [] then 0 else (if es[0].packageTemp.Some? then 1 else 0) + HeaderCount(es[1..])
  }

  /** Only "index temp" and "temp" lines */
  predicate AllMachineLines(ls: seq<Line>) {
    forall l | l in ls :: IsMachineLine(l)
  }

  /** Only socket and core lines, none showing a negative temperature */
  predicate AllHumanLines(ls: seq<Line>) {
    forall l | l in ls :: !IsMachineLine(l) && !l.Found? && NoNegativeShown(l)
  }

  function LinesOf(args: Args, es: seq<Entry>): (ls: seq<Line>)
    ensures !args.machineReadable ==> |ls| == |es| + HeaderCount(es)
    ensures args.machineReadable && args.displayCpu == -1 ==> |ls| == |es|
    ensures args.machineReadable ==> |ls| <= |es|
    ensures args.machineReadable ==> AllMachineLines(ls)
    ensures !args.machineReadable ==> AllHumanLines(ls)
    decreases |es|
  {
    if es == [] then [] else EntryLines(args, es[0]) + LinesOf(args, es[1..])
  }

  datatype Outcome = Outcome(exitCode: int, lines: seq<Line>)

  /** The reporter from start to exit.  `openOk` is whether kstat_open
      succeeded; on failure perror writes to standard error only. */
  function Report(openOk: bool, argv: seq<string>, chain: seq<Record>): (o: Outcome)
    ensures !openOk ==> o == Outcome(1, [])
    ensures openOk ==> o.exitCode == 0
    ensures openOk && !ParseArgs(argv).machineReadable ==>
              |o.lines| >= 1 && o.lines[0] == Found(|Enumerate(chain)|, SocketCount(Enumerate(chain)))
              && forall i | 1 <= i < |o.lines| :: !o.lines[i].Found? && NoNegativeShown(o.lines[i])
    ensures ParseArgs(argv).machineReadable ==> forall l | l in o.lines :: IsMachineLine(l)
    ensures openOk && !ParseArgs(argv).machineReadable ==>
              var es := Entries(chain, Enumerate(chain));
              |o.lines| == 1 + |es| + HeaderCount(es)
    ensures openOk && ParseArgs(argv) == Args(true, -1) ==>
              |o.lines| == |Entries(chain, Enumerate(chain))|
  {
    if !openOk then Outcome(1, [])
    else
      var args := ParseArgs(argv);
      var cpus := Enumerate(chain);
      var body := LinesOf(args, Entries(chain, cpus));
      if args.machineReadable then Outcome(0, body)
      else
        var all := [Found(|cpus|, SocketCount(cpus))] + body;
        assert forall i | 1 <= i < |all| :: all[i] in body;
        Outcome(0, all)
  }

  // ---------------------------------------------------------------------
  // What the output says

  /** In human mode each printed core gets its "\tCore #" line carrying its
      core temperature when that is not negative, and an entry with a
      package temperature (core 0) is preceded by its "Socket #" line
      carrying the package temperature when that is not negative.  Entry
      k's lines start after the k earlier core lines and the headers of the
      earlier entries. */
  lemma HumanListsAll(es: seq<Entry>)
    ensures |LinesOf(Args(false, -1), es)| == |es| + HeaderCount(es)
    ensures forall k | 0 <= k < |es| ::
              |LinesOf(Args(false, -1), es[..k])| == k + HeaderCount(es[..k])
    ensures forall k | 0 <= k < |es| ::
              LinesOf(Args(false, -1), es)
              == LinesOf(Args(false, -1), es[..k]) + HumanLines(es[k]) + LinesOf(Args(false, -1), es[k+1..])
  {
    forall k | 0 <= k < |es|
      ensures LinesOf(Args(false, -1), es)
              == LinesOf(Args(false, -1), es[..k]) + HumanLines(es[k]) + LinesOf(Args(false, -1), es[k+1..])
    {
      EntryInContext(Args(false, -1), es, k);
    }
  }

  /** The lines of entry k sit between those of the entries before it
      and those of the entries after it */
  lemma EntryInContext(args: Args, es: seq<Entry>, k: nat)
    requires k < |es|
    ensures LinesOf(args, es) == LinesOf(args, es[..k]) + EntryLines(args, es[k]) + LinesOf(args, es[k+1..])
  {
    LinesOfSplit(args, es, k);
    LinesOfHead(args, es[k..]);
    assert es[k..][0] == es[k];
    assert es[k..][1..] == es[k+1..];
    LinesAssociative(LinesOf(args, es[..k]), EntryLines(args, es[k]), LinesOf(args, es[k+1..]));
  }

  /** Cutting the entries at k cuts the lines after the first k entries' lines */
  lemma LinesOfSplit(args: Args, es: seq<Entry>, k: nat)
    requires k <= |es|
    ensures LinesOf(args, es) == LinesOf(args, es[..k]) + LinesOf(args, es[k..])
  {
    assert es == es[..k] + es[k..];
    LinesOfAppend(args, es[..k], es[k..]);
  }

  /** The lines of a non-empty run begin with those of its first entry */
  lemma LinesOfHead(args: Args, es: seq<Entry>)
    requires es != []
    ensures LinesOf(args, es) == EntryLines(args, es[0]) + LinesOf(args, es[1..])
  {
  }

  /** The lines of two runs of entries are the lines of the first run
      followed by those of the second */
  lemma {:induction false} LinesOfAppend(args: Args, xs: seq<Entry>, ys: seq<Entry>)
    ensures LinesOf(args, xs + ys) == LinesOf(args, xs) + LinesOf(args, ys)
    decreases |xs|
  {
    if xs == [] {
      assert xs + ys == ys;
    } else {
      LinesOfCons(args, xs, ys);
      LinesOfAppend(args, xs[1..], ys);
      var e := EntryLines(args, xs[0]);
      var a := LinesOf(args, xs[1..]);
      var b := LinesOf(args, ys);
      assert LinesOf(args, xs) == e + a;
      LinesAssociative(e, a, b);
    }
  }

  lemma LinesAssociative(e: seq<Line>, a: seq<Line>, b: seq<Line>)
    ensures e + (a + b) == (e + a) + b
  {
  }

  /** The first entry's lines come first */
  lemma LinesOfCons(args: Args, xs: seq<Entry>, ys: seq<Entry>)
    requires xs != []
    ensures LinesOf(args, xs + ys) == EntryLines(args, xs[0]) + LinesOf(args, xs[1..] + ys)
  {
    assert (xs + ys)[0] == xs[0];
    assert (xs + ys)[1..] == xs[1..] + ys;
  }

  /** The human report: the "Found" header, then for every printed core,
      in printing order, its lines as above; the entries carrying a
      package temperature are exactly those of core 0 */
  lemma HumanReport(argv: seq<string>, chain: seq<Record>)
    requires !ParseArgs(argv).machineReadable
    ensures var es := Entries(chain, Enumerate(chain));
            var o := Report(true, argv, chain);
            && (forall e | e in es :: e.packageTemp.Some? <==> e.cpu.coreId == 0)
            && |o.lines| == 1 + |es| + HeaderCount(es)
            && o.lines[1..] == LinesOf(Args(false, -1), es)
  {
    var cpus := Enumerate(chain);
    var es := Entries(chain, cpus);
    PackageOnlyForCoreZero(chain, cpus);
    HumanLinesIgnoreCpu(ParseArgs(argv), es);
    ReportBody(argv, chain);
  }

  /** With -p and no cpu argument, one "index temp" line per printed core,
      in printing order */
  lemma {:induction false} MachineListsAll(es: seq<Entry>)
    ensures |LinesOf(Args(true, -1), es)| == |es|
    ensures forall i | 0 <= i < |es| ::
              LinesOf(Args(true, -1), es)[i] == IndexTemp(es[i].cpu.cpuIndex, es[i].coreTemp)
    decreases |es|
  {
    if es != [] {
      MachineListsAll(es[1..]);
      var ls := LinesOf(Args(true, -1), es);
      assert ls == [IndexTemp(es[0].cpu.cpuIndex, es[0].coreTemp)] + LinesOf(Args(true, -1), es[1..]);
      forall i | 1 <= i < |es|
        ensures ls[i] == IndexTemp(es[i].cpu.cpuIndex, es[i].coreTemp)
      {
        assert es[1..][i - 1] == es[i];
      }
    }
  }

  predicate DistinctCpus(es: seq<Entry>) {
    forall i, j | 0 <= i < j < |es| :: es[i].cpu.cpuIndex != es[j].cpu.cpuIndex
  }

  /** With -p and a cpu argument `d`: nothing unless a printed core stands
      for cpu `d`, and then only that core's temperature */
  lemma {:induction false} MachineSelects(d: int, es: seq<Entry>)
    requires d != -1
    requires DistinctCpus(es)
    ensures (forall i | 0 <= i < |es| :: es[i].cpu.cpuIndex != d) ==> LinesOf(Args(true, d), es) == []
    ensures forall i | 0 <= i < |es| && es[i].cpu.cpuIndex == d ::
              LinesOf(Args(true, d), es) == [TempOnly(es[i].coreTemp)]
    decreases |es|
  {
    if es != [] {
      var tail := es[1..];
      assert DistinctCpus(tail) by {
        forall i, j | 0 <= i < j < |tail|
          ensures tail[i].cpu.cpuIndex != tail[j].cpu.cpuIndex
        {
          assert tail[i] == es[i + 1] && tail[j] == es[j + 1];
        }
      }
      MachineSelects(d, tail);
      assert LinesOf(Args(true, d), es) == MachineLines(d, es[0]) + LinesOf(Args(true, d), tail);
      forall i | 1 <= i < |es|
        ensures tail[i - 1] == es[i]
      {
      }
      if es[0].cpu.cpuIndex == d {
        assert forall i | 0 <= i < |tail| :: tail[i].cpu.cpuIndex != d;
      }
    }
  }

  /** `coretempstat -p` lists every printed core as "index temp", in
      printing order */
  lemma ListingReport(prog: string, chain: seq<Record>)
    ensures var o := Report(true, [prog, "-p"], chain);
            var es := Entries(chain, Enumerate(chain));
            && |o.lines| == |es|
            && forall i | 0 <= i < |es| :: o.lines[i] == IndexTemp(es[i].cpu.cpuIndex, es[i].coreTemp)
  {
    MachineListsAll(Entries(chain, Enumerate(chain)));
  }

  /** Every socket header is followed at once by the line of a core 0 */
  predicate HeadersBeforeCoreZero(ls: seq<Line>) {
    forall i | 0 <= i < |ls| && ls[i].SocketLine? :: i + 1 < |ls| && ls[i + 1].CoreLine? && ls[i + 1].core == 0
  }

  /** In human mode a socket header is printed only for a core 0, and it is
      followed at once by that core's line */
  lemma {:induction false} SocketHeaderBeforeCoreZero(es: seq<Entry>)
    requires forall e | e in es :: e.packageTemp.Some? <==> e.cpu.coreId == 0
    ensures HeadersBeforeCoreZero(LinesOf(Args(false, -1), es))
    decreases |es|
  {
    if es != [] {
      var tail := es[1..];
      assert forall e | e in tail :: e in es;
      SocketHeaderBeforeCoreZero(tail);
      assert es[0] in es;
      EntryHeaders(es[0]);
      assert LinesOf(Args(false, -1), es) == HumanLines(es[0]) + LinesOf(Args(false, -1), tail);
      HeadersConcat(HumanLines(es[0]), LinesOf(Args(false, -1), tail));
    }
  }

  /** One entry's human lines keep the header rule when only core 0 has a
      package temperature */
  lemma EntryHeaders(e: Entry)
    requires e.packageTemp.Some? <==> e.cpu.coreId == 0
    ensures HeadersBeforeCoreZero(HumanLines(e))
  {
    var h := HumanLines(e);
    if e.packageTemp.Some? {
      assert h[0].SocketLine? && h[1] == CoreLine(0, Displayed(e.coreTemp));
    }
  }

  /** The header rule survives joining two runs of lines that keep it */
  lemma HeadersConcat(a: seq<Line>, b: seq<Line>)
    requires HeadersBeforeCoreZero(a) && HeadersBeforeCoreZero(b)
    ensures HeadersBeforeCoreZero(a + b)
  {
    var ls := a + b;
    forall i | 0 <= i < |ls| && ls[i].SocketLine?
      ensures i + 1 < |ls| && ls[i + 1].CoreLine? && ls[i + 1].core == 0
    {
      if i < |a| {
        assert ls[i] == a[i];
        assert ls[i + 1] == a[i + 1];
      } else {
        assert ls[i] == b[i - |a|];
        assert ls[i + 1] == b[i + 1 - |a|];
      }
    }
  }

  /** The entries the reporter prints carry a package temperature exactly
      for core 0, so the header rule above applies to its output */
  lemma HumanReportHeaders(argv: seq<string>, chain: seq<Record>)
    requires !ParseArgs(argv).machineReadable
    ensures HeadersBeforeCoreZero(Report(true, argv, chain).lines)
  {
    var cpus := Enumerate(chain);
    var es := Entries(chain, cpus);
    PackageOnlyForCoreZero(chain, cpus);
    HumanLinesIgnoreCpu(ParseArgs(argv), es);
    SocketHeaderBeforeCoreZero(es);
    ReportBody(argv, chain);
    HeaderKeepsOrder(Found(|cpus|, SocketCount(cpus)), LinesOf(Args(false, -1), es));
  }

  /** The lines of a run in which kstat_open succeeded: the header in human
      mode, then the lines of each printed core */
  lemma ReportBody(argv: seq<string>, chain: seq<Record>)
    ensures var args := ParseArgs(argv);
            var cpus := Enumerate(chain);
            var body := LinesOf(args, Entries(chain, cpus));
            Report(true, argv, chain).lines
            == if args.machineReadable then body else [Found(|cpus|, SocketCount(cpus))] + body
  {
  }

  lemma PackageOnlyForCoreZero(chain: seq<Record>, cpus: seq<CpuInfo>)
    ensures forall e | e in Entries(chain, cpus) :: e.packageTemp.Some? <==> e.cpu.coreId == 0
  {
    forall e | e in Entries(chain, cpus)
      ensures e.packageTemp.Some? <==> e.cpu.coreId == 0
    {
      assert Genuine(chain, cpus, e);
    }
  }

  lemma HeaderKeepsOrder(h: Line, body: seq<Line>)
    requires !h.SocketLine?
    requires HeadersBeforeCoreZero(body)
    ensures HeadersBeforeCoreZero([h] + body)
  {
    var ls := [h] + body;
    forall i | 0 <= i < |ls| && ls[i].SocketLine?
      ensures i + 1 < |ls| && ls[i + 1].CoreLine? && ls[i + 1].core == 0
    {
      assert ls[i] == body[i - 1];
      assert i < |body| ==> ls[i + 1] == body[i];
    }
  }

  /** In human mode the cpu argument plays no part */
  lemma {:induction false} HumanLinesIgnoreCpu(args: Args, es: seq<Entry>)
    requires !args.machineReadable
    ensures LinesOf(args, es) == LinesOf(Args(false, -1), es)
    decreases |es|
  {
    if es != [] {
      HumanLinesIgnoreCpu(args, es[1..]);
    }
  }

  /** The cores printed stand for pairwise distinct cpus: two of them
      standing for one cpu would have the same socket and core */
  lemma EntriesDistinctCpus(chain: seq<Record>, cpus: seq<CpuInfo>)
    requires forall k | 0 <= k < |cpus| :: cpus[k].cpuIndex == k
    ensures DistinctCpus(Entries(chain, cpus))
  {
    var es := Entries(chain, cpus);
    forall i, j | 0 <= i < j < |es|
      ensures es[i].cpu.cpuIndex != es[j].cpu.cpuIndex
    {
      assert es[i] in es && es[j] in es;
      assert Precedes(es[i], es[j]);
      var a :| IsFirstCpu(cpus, a, es[i].cpu.chipId, es[i].cpu.coreId) && es[i].cpu == cpus[a];
      var b :| IsFirstCpu(cpus, b, es[j].cpu.chipId, es[j].cpu.coreId) && es[j].cpu == cpus[b];
      assert es[i].cpu.cpuIndex == a && es[j].cpu.cpuIndex == b;
    }
  }

  /** `coretempstat -p N` prints at most one line: the temperature of the
      core that cpu N stands for, if it is printed at all */
  lemma SelectedCpuReport(prog: string, n: int, chain: seq<Record>)
    requires n != -1
    ensures var o := Report(true, [prog, "-p", IntToString(n)], chain);
            var es := Entries(chain, Enumerate(chain));
            && o.exitCode == 0
            && ((forall i | 0 <= i < |es| :: es[i].cpu.cpuIndex != n) ==> o.lines == [])
            && (forall i | 0 <= i < |es| && es[i].cpu.cpuIndex == n :: o.lines == [TempOnly(es[i].coreTemp)])
  {
    ParseSelectsCpu(prog, n);
    var cpus := Enumerate(chain);
    EntriesDistinctCpus(chain, cpus);
    MachineSelects(n, Entries(chain, cpus));
  }

  /** The driver publishes module "coretemp", instance i, name "coretemp",
      while the reporter asks for module "cpu_info", name "coretemp<i>":
      against the driver's own kstats the reporter finds no cpu at all */
  lemma DriverChainInvisible(cores: seq<Topology.Core>, refresh: nat -> CoreTemp.Update, prog: string)
    ensures Enumerate(Publication.Chain(cores, refresh)) == []
    ensures Report(true, [prog], Publication.Chain(cores, refresh)) == Outcome(0, [Found(0, 0)])
  {
    var chain := Publication.Chain(cores, refresh);
    assert forall k | 0 <= k < |chain| :: chain[k].modName == Publication.ModuleName;
    ReadWithoutInfo(chain, 0, "chip_id");
    var cpus := Enumerate(chain);
    assert ChipAt(chain, 0) == -1;
    assert cpus == [];
    assert Entries(chain, cpus) == [];
  }

  // ---------------------------------------------------------------------
  // Text

  /** " temp : <t> °C" when a temperature is shown, nothing otherwise */
  function TempText(t: Option<int>): string {
    match t
    case None => ""
    case Some(v) => " temp : " + IntToString(v) + " \U{00B0}C"
  }

  function Plural(n: int): string {
    if n == 1 then "" else "s"
  }

  /** A number in decimal between two pieces of text */
  function Around(before: string, n: int, after: string): string {
    before + IntToString(n) + after
  }

  /** "Found <n> CPU(s) in <k> socket(s)" */
  function Header(n: int, k: int): string {
    Around("Found ", n, " CPU" + Plural(n)) + Around(" in ", k, " socket" + Plural(k))
  }

  /** The text of a line before its newline */
  function Content(l: Line): string {
    match l
    case Found(n, k) => Header(n, k)
    case SocketLine(c, t) => "Socket #" + IntToString(c) + TempText(t)
    case CoreLine(c, t) => "\tCore #" + IntToString(c) + TempText(t)
    case IndexTemp(i, t) => IntToString(i) + " " + IntToString(t)
    case TempOnly(t) => IntToString(t)
  }

  /** The printf of each line: every format string ends in its only newline */
  function Render(l: Line): string {
    Content(l) + "\n"
  }

  /** The "Found" header's format with plurals */
  lemma FoundLineExample()
    ensures Render(Found(4, 1)) == "Found 4 CPUs in 1 socket\n"
  {
    assert IntToString(1) == "1" && IntToString(4) == "4";
    assert Around("Found ", 4, " CPUs") == "Found 4 CPUs";
    assert Around(" in ", 1, " socket") == " in 1 socket";
  }

  /** The "Found" header's format for one cpu */
  lemma FoundOneCpuExample()
    ensures Render(Found(1, 2)) == "Found 1 CPU in 2 sockets\n"
  {
    assert IntToString(1) == "1" && IntToString(2) == "2";
    assert Around("Found ", 1, " CPU") == "Found 1 CPU";
    assert Around(" in ", 2, " sockets") == " in 2 sockets";
  }

  /** The "Socket #" and "\tCore #" formats without a temperature */
  lemma HumanLineExample()
    ensures Render(SocketLine(1, None)) == "Socket #1\n"
    ensures Render(CoreLine(2, None)) == "\tCore #2\n"
  {
    assert IntToString(1) == "1" && IntToString(2) == "2";
  }

  /** The "\tCore #" format with a temperature and the degree sign */
  lemma CoreTempLineExample()
    ensures Render(CoreLine(3, Some(58))) == "\tCore #3 temp : 58 \U{00B0}C\n"
  {
    assert IntToString(3) == "3";
    TempTextExample();
    assert Render(CoreLine(3, Some(58))) == "\tCore #3" + TempText(Some(58)) + "\n";
  }

  /** The temperature suffix: the value in decimal and the degree sign */
  lemma TempTextExample()
    ensures TempText(Some(58)) == " temp : 58 \U{00B0}C"
  {
    assert NatToString(5) == "5" && NatToString(8) == "8";
    assert IntToString(58) == "58";
  }

  /** The two machine-readable formats */
  lemma MachineLineExample()
    ensures Render(IndexTemp(7, 58)) == "7 58\n"
    ensures Render(TempOnly(-1)) == "-1\n"
  {
    assert NatToString(5) == "5" && NatToString(8) == "8";
    assert IntToString(7) == "7" && IntToString(58) == "58" && IntToString(-1) == "-1";
  }

  predicate NoNewline(s: string) {
    forall i | 0 <= i < |s| :: s[i] != '\n'
  }

  lemma NoNewlineConcat(a: string, b: string)
    requires NoNewline(a) && NoNewline(b)
    ensures NoNewline(a + b)
  {
    assert forall i | |a| <= i < |a + b| :: (a + b)[i] == b[i - |a|];
  }

  lemma IntToStringNoNewline(n: int)
    ensures NoNewline(IntToString(n))
  {
    var s := IntToString(n);
    if n < 0 {
      assert forall i | 1 <= i < |s| :: s[i] == s[1..][i - 1];
    }
  }

  /** Each printed line is exactly one line of text: the newline that ends
      it is its only one */
  lemma RenderIsOneLine(l: Line)
    ensures |Render(l)| > 0 && Render(l)[|Render(l)| - 1] == '\n'
    ensures NoNewline(Render(l)[..|Render(l)| - 1])
  {
    assert Render(l)[..|Render(l)| - 1] == Content(l);
    ContentNoNewline(l);
  }

  lemma ContentNoNewline(l: Line)
    ensures NoNewline(Content(l))
  {
    match l
    case Found(n, k) => HeaderNoNewline(n, k);
    case SocketLine(ch, t) => LabelledNoNewline("Socket #", ch, t);
    case CoreLine(co, t) => LabelledNoNewline("\tCore #", co, t);
    case IndexTemp(i, t) =>
      IntToStringNoNewline(i);
      IntToStringNoNewline(t);
      NoNewlineConcat(IntToString(i), " ");
      NoNewlineConcat(IntToString(i) + " ", IntToString(t));
    case TempOnly(t) => IntToStringNoNewline(t);
  }

  lemma HeaderNoNewline(n: int, k: int)
    ensures NoNewline(Header(n, k))
  {
    AroundNoNewline("Found ", n, " CPU" + Plural(n));
    AroundNoNewline(" in ", k, " socket" + Plural(k));
    NoNewlineConcat(Around("Found ", n, " CPU" + Plural(n)), Around(" in ", k, " socket" + Plural(k)));
  }

  lemma AroundNoNewline(before: string, n: int, after: string)
    requires NoNewline(before) && NoNewline(after)
    ensures NoNewline(Around(before, n, after))
  {
    IntToStringNoNewline(n);
    NoNewlineConcat(before, IntToString(n));
    NoNewlineConcat(before + IntToString(n), after);
  }

  lemma LabelledNoNewline(prefix: string, x: int, t: Option<int>)
    requires NoNewline(prefix)
    ensures NoNewline(prefix + IntToString(x) + TempText(t))
  {
    IntToStringNoNewline(x);
    TempTextNoNewline(t);
    NoNewlineConcat(prefix, IntToString(x));
    NoNewlineConcat(prefix + IntToString(x), TempText(t));
  }

  lemma TempTextNoNewline(t: Option<int>)
    ensures NoNewline(TempText(t))
  {
    if t.Some? {
      IntToStringNoNewline(t.value);
      NoNewlineConcat(" temp : ", IntToString(t.value));
      NoNewlineConcat(" temp : " + IntToString(t.value), " \U{00B0}C");
    }
  }

  /** A script reading `coretempstat -p` output gets back the cpu index
      with atoi from the start of the line and the temperature from after
      the index */
  lemma MachineLineParses(i: int, t: int)
    ensures Atoi(Render(IndexTemp(i, t))) == i
    ensures Atoi(Render(IndexTemp(i, t))[|IntToString(i)|..]) == t
  {
    var rest := " " + (IntToString(t) + "\n");
    IndexTempText(i, t);
    AtoiIntToString(i, rest);
    TemperatureParses(t);
  }

  lemma IndexTempText(i: int, t: int)
    ensures Render(IndexTemp(i, t)) == IntToString(i) + (" " + (IntToString(t) + "\n"))
    ensures Render(IndexTemp(i, t))[|IntToString(i)|..] == " " + (IntToString(t) + "\n")
  {
    var a := IntToString(i);
    var n := IntToString(t);
    assert Render(IndexTemp(i, t)) == ((a + " ") + n) + "\n";
    AppendAssociative(a + " ", n, "\n");
    AppendAssociative(a, " ", n + "\n");
    assert (a + (" " + (n + "\n")))[|a|..] == " " + (n + "\n");
  }

  lemma TemperatureParses(t: int)
    ensures Atoi(" " + (IntToString(t) + "\n")) == t
  {
    AtoiSkipsBlank(IntToString(t) + "\n");
    AtoiIntToString(t, "\n");
  }

  /** `coretempstat -p N` prints a line atoi reads back as the temperature */
  lemma SelectedLineParses(t: int)
    ensures Atoi(Render(TempOnly(t))) == t
  {
    AtoiIntToString(t, "\n");
  }

  /** temp_to_str: "n/a" for -1, otherwise the number in decimal */
  function TempToStr(t: Int32): (r: string)
    ensures r == "n/a" <==> t == -1
    ensures t != -1 ==> Atoi(r) == t
  {
    if t == -1 then "n/a"
    else
      AtoiIntToString(t, []);
      assert IntToString(t) + [] == IntToString(t);
      assert IntToString(t)[0] != 'n';
      IntToString(t)
  }
}

=== FILE: decimal.dfy ===
/** Decimal text: the `%d` conversion of printf/sprintf, and atoi.
    The reporter prints every number with `%d` and reads its cpu argument
    with atoi; the round-trip lemma below ties the two together. */
module Decimal {

  predicate IsDigit(c: char) {
    '0' <= c <= '9'
  }

  predicate AllDigits(s: string) {
    forall i | 0 <= i < |s| :: IsDigit(s[i])
  }

  /** The white-space class of isspace() in the C locale */
  predicate IsSpace(c: char) {
    c == ' ' || c == '\t' || c == '\n' || c == '\r' || c as int == 0x0B || c as int == 0x0C
  }

  function DigitChar(d: nat): (c: char)
    requires d < 10
    ensures IsDigit(c)
    ensures c as int - '0' as int == d
  {
    ('0' as int + d) as char
  }

  function DigitValue(c: char): (d: nat)
    requires IsDigit(c)
    ensures d < 10
    ensures DigitChar(d) == c
  {
    c as int - '0' as int
  }

  /** Digits of `n`, most significant first, without leading zeros */
  function NatToString(n: nat): (s: string)
    ensures |s| >= 1 && AllDigits(s)
    ensures |s| > 1 ==> s[0] != '0'
    decreases n
  {
    if n < 10 then [DigitChar(n)] else NatToString(n / 10) + [DigitChar(n % 10)]
  }

  /** The number a string of digits denotes */
  function DigitsValue(s: string): nat
    requires AllDigits(s)
  {
    if s == [] then 0 else DigitsValue(s[..|s| - 1]) * 10 + DigitValue(s[|s| - 1])
  }

  lemma {:induction false} NatToStringValue(n: nat)
    ensures DigitsValue(NatToString(n)) == n
    decreases n
  {
    if n >= 10 {
      var s := NatToString(n / 10);
      NatToStringValue(n / 10);
      var t := s + [DigitChar(n % 10)];
      assert NatToString(n) == t;
      assert t[..|t| - 1] == s;
    }
  }

  /** printf("%d", n) */
  function IntToString(n: int): (s: string)
    ensures |s| >= 1
    ensures s[0] == '-' <==> n < 0
    ensures n < 0 ==> |s| >= 2 && AllDigits(s[1..])
    ensures n >= 0 ==> AllDigits(s)
    ensures n >= 0 && |s| > 1 ==> s[0] != '0'
    ensures n < 0 && |s| > 2 ==> s[1] != '0'
  {
    if n < 0 then "-" + NatToString(-n) else NatToString(n)
  }

  /** The suffix of `s` left after its leading white space */
  function SkipSpace(s: string): (t: string)
    ensures |t| <= |s| && t == s[|s| - |t|..]
    ensures forall i | 0 <= i < |s| - |t| :: IsSpace(s[i])
    ensures t == [] || !IsSpace(t[0])
  {
    if s != [] && IsSpace(s[0]) then SkipSpace(s[1..]) else s
  }

  /** The longest prefix of `s` made of digits */
  function DigitPrefix(s: string): (p: string)
    ensures p <= s && AllDigits(p)
    ensures |p| < |s| ==> !IsDigit(s[|p|])
  {
    if s != [] && IsDigit(s[0]) then [s[0]] + DigitPrefix(s[1..]) else []
  }

  /** atoi(3): leading white space, an optional sign, then the longest run
      of digits; 0 when there are no digits. */
  function Atoi(s: string): (n: int)
    ensures (forall i | 0 <= i < |s| :: !IsDigit(s[i])) ==> n == 0
  {
    SignedValue(SkipSpace(s))
  }

  /** An optional sign, then the longest run of digits */
  function SignedValue(t: string): (n: int)
    ensures (forall i | 0 <= i < |t| :: !IsDigit(t[i])) ==> n == 0
  {
    if |t| > 0 && t[0] == '-' then -(DigitsValue(DigitPrefix(t[1..])) as int)
    else if |t| > 0 && t[0] == '+' then DigitsValue(DigitPrefix(t[1..]))
    else DigitsValue(DigitPrefix(t))
  }

  lemma {:induction false} DigitPrefixOfDigits(d: string, rest: string)
    requires AllDigits(d)
    requires rest == [] || !IsDigit(rest[0])
    ensures DigitPrefix(d + rest) == d
    decreases |d|
  {
    if d != [] {
      assert (d + rest)[1..] == d[1..] + rest;
      DigitPrefixOfDigits(d[1..], rest);
      assert d == [d[0]] + d[1..];
    } else {
      assert d + rest == rest;
    }
  }

  lemma SkipSpaceStops(s: string)
    requires |s| > 0 && !IsSpace(s[0])
    ensures SkipSpace(s) == s
  {
  }

  lemma SkipSpaceDropsBlank(s: string)
    ensures SkipSpace(" " + s) == SkipSpace(s)
  {
    var t := " " + s;
    assert t[0] == ' ';
    DropFirst(" ", s);
  }

  /** atoi skips a leading blank */
  lemma AtoiSkipsBlank(s: string)
    ensures Atoi(" " + s) == Atoi(s)
  {
    SkipSpaceDropsBlank(s);
  }

  /** atoi of text that starts with neither white space nor a sign */
  lemma AtoiUnsigned(s: string)
    requires |s| > 0 && !IsSpace(s[0]) && s[0] != '-' && s[0] != '+'
    ensures Atoi(s) == DigitsValue(DigitPrefix(s))
  {
    SkipSpaceStops(s);
  }

  /** atoi of text that starts with a minus sign */
  lemma AtoiMinus(s: string)
    requires |s| > 0 && s[0] == '-'
    ensures Atoi(s) == -(DigitsValue(DigitPrefix(s[1..])) as int)
  {
    SkipSpaceStops(s);
  }

  /** atoi of a run of digits followed by something that is not a digit */
  lemma AtoiOfDigits(d: string, rest: string)
    requires |d| >= 1 && AllDigits(d)
    requires rest == [] || !IsDigit(rest[0])
    ensures Atoi(d + rest) == DigitsValue(d)
  {
    var s := d + rest;
    assert s[0] == d[0];
    AtoiUnsigned(s);
    DigitPrefixOfDigits(d, rest);
  }

  /** atoi of a minus sign, a run of digits, and something that is not a digit */
  lemma AtoiOfNegativeDigits(d: string, rest: string)
    requires |d| >= 1 && AllDigits(d)
    requires rest == [] || !IsDigit(rest[0])
    ensures Atoi(("-" + d) + rest) == -(DigitsValue(d) as int)
  {
    var s := ("-" + d) + rest;
    AppendAssociative("-", d, rest);
    DropFirst("-", d + rest);
    AtoiMinus(s);
    DigitPrefixOfDigits(d, rest);
  }

  lemma AppendAssociative(a: string, b: string, c: string)
    ensures (a + b) + c == a + (b + c)
  {
  }

  lemma DropFirst(x: string, y: string)
    requires |x| == 1
    ensures (x + y)[1..] == y
  {
  }

  /** atoi reads back what `%d` wrote, whatever non-digit text follows it */
  lemma AtoiIntToString(n: int, rest: string)
    requires rest == [] || !IsDigit(rest[0])
    ensures Atoi(IntToString(n) + rest) == n
  {
    if n < 0 {
      var d := NatToString(-n);
      AtoiOfNegativeDigits(d, rest);
      NatToStringValue(-n);
    } else {
      var d := NatToString(n);
      AtoiOfDigits(d, rest);
      NatToStringValue(n);
    }
  }

  /** `%d` never writes the same text for two different numbers */
  lemma IntToStringInjective(m: int, n: int)
    requires IntToString(m) == IntToString(n)
    ensures m == n
  {
    AtoiIntToString(m, []);
    AtoiIntToString(n, []);
    assert IntToString(m) + [] == IntToString(m);
    assert IntToString(n) + [] == IntToString(n);
  }
}

=== FILE: ints.dfy ===
/** The C integer types that appear in the driver and the reporter, as
    subset types of `int`, and the conversion that the reporter applies
    when it stores a `long` into an `int`. */
module Ints {

  const Int32Min: int := -0x8000_0000
  const Int32Bound: int := 0x8000_0000
  const Int64Bound: int := 0x8000_0000_0000_0000

  type Int32 = x: int | -0x8000_0000 <= x < 0x8000_0000
  type Uint32 = x: int | 0 <= x < 0x1_0000_0000
  type Int64 = x: int | -0x8000_0000_0000_0000 <= x < 0x8000_0000_0000_0000
  type Uint64 = x: int | 0 <= x < 0x1_0000_0000_0000_0000

  /** Two's-complement narrowing of a 64-bit `long` to a 32-bit `int`
      (what the illumos compilers do for `int x = (long)v`). */
  function Wrap32(x: Int64): (r: Int32)
    ensures Int32Min <= x < Int32Bound ==> r == x
    ensures (r - x) % 0x1_0000_0000 == 0
  {
    (x + 0x8000_0000) % 0x1_0000_0000 - 0x8000_0000
  }

  /** Two's-complement reinterpretation of an unsigned 64-bit value as a
      signed `long`. */
  function Signed64(x: Uint64): (r: Int64)
    ensures x < Int64Bound ==> r == x
    ensures x >= Int64Bound ==> r < 0
    ensures (r - x) % 0x1_0000_0000_0000_0000 == 0
  {
    if x < 0x8000_0000_0000_0000 then x else x - 0x1_0000_0000_0000_0000
  }
}

=== FILE: kstat.dfy ===
/** Named kstats as the kstat library presents them to a reader: a chain of
    records, each a list of named, typed values.  kstat_open, kstat_lookup
    and kstat_read are replaced by this value; whether kstat_read succeeds
    on a record is part of the record. */
module KStat {
  import opened Wrappers
  import opened Ints

  /** The value of one named field, by its KSTAT_DATA_* type */
  datatype Data =
    | Int32Data(i32: Int32)
    | Uint32Data(ui32: Uint32)
    | Int64Data(i64: Int64)
    | Uint64Data(ui64: Uint64)
    | CharData(c: string)
    | StringData(str: string)

  datatype Named = Named(name: string, data: Data)

  datatype Record = Record(modName: string, instance: int, name: string, readable: bool, fields: seq<Named>)

  /** kstat_lookup's match: the module and name must be equal, and an
      instance of -1 matches every instance */
  predicate Matches(r: Record, modName: string, instance: int, name: string) {
    r.modName == modName && (instance == -1 || r.instance == instance) && r.name == name
  }

  /** `k` is the first record of the chain that kstat_lookup would match */
  predicate IsFirstRecord(chain: seq<Record>, k: int, modName: string, instance: int, name: string) {
    && 0 <= k < |chain|
    && Matches(chain[k], modName, instance, name)
    && forall k' | 0 <= k' < k :: !Matches(chain[k'], modName, instance, name)
  }

  /** `j` is the first field called `name` */
  predicate IsFirstField(fields: seq<Named>, j: int, name: string) {
    && 0 <= j < |fields|
    && fields[j].name == name
    && forall j' | 0 <= j' < j :: fields[j'].name != name
  }

  predicate IsInteger(d: Data) {
    d.Int32Data? || d.Uint32Data? || d.Int64Data? || d.Uint64Data?
  }

  /** kstat_lookup over the records from `i` on */
  function LookupFrom(chain: seq<Record>, i: nat, modName: string, instance: int, name: string): (r: Option<nat>)
    requires i <= |chain|
    ensures r.Some? ==> i <= r.value < |chain| && Matches(chain[r.value], modName, instance, name)
    ensures r.Some? ==> forall k | i <= k < r.value :: !Matches(chain[k], modName, instance, name)
    ensures r.None? ==> forall k | i <= k < |chain| :: !Matches(chain[k], modName, instance, name)
    decreases |chain| - i
  {
    if i == |chain| then None
    else if Matches(chain[i], modName, instance, name) then Some(i)
    else LookupFrom(chain, i + 1, modName, instance, name)
  }

  /** The search loop of getKStatNumber over the fields from `i` on */
  function FieldFrom(fields: seq<Named>, i: nat, name: string): (r: Option<nat>)
    requires i <= |fields|
    ensures r.Some? ==> i <= r.value < |fields| && fields[r.value].name == name
    ensures r.Some? ==> forall j | i <= j < r.value :: fields[j].name != name
    ensures r.None? ==> forall j | i <= j < |fields| :: fields[j].name != name
    decreases |fields| - i
  {
    if i == |fields| then None
    else if fields[i].name == name then Some(i)
    else FieldFrom(fields, i + 1, name)
  }

  /** A field's value as the `long` getKStatNumber returns: the four
      integer types convert (an unsigned 64-bit value wraps), anything else
      reads as -1 */
  function AsLong(d: Data): (v: Int64)
    ensures d.Int32Data? ==> v == d.i32
    ensures d.Uint32Data? ==> v == d.ui32
    ensures d.Int64Data? ==> v == d.i64
    ensures d.Uint64Data? ==> v == Signed64(d.ui64)
    ensures !IsInteger(d) ==> v == -1
  {
    match d
    case Int32Data(x) => x
    case Uint32Data(x) => x
    case Int64Data(x) => x
    case Uint64Data(x) => Signed64(x)
    case CharData(_) => -1
    case StringData(_) => -1
  }

  /** getKStatNumber: the value of the first field called `field` in the
      first record that matches, or -1 when there is no such record, it
      cannot be read, or it has no such field */
  function GetKStatNumber(chain: seq<Record>, modName: string, instance: int, name: string,
                          field: string): (v: Int64)
    ensures (forall k | 0 <= k < |chain| :: !Matches(chain[k], modName, instance, name)) ==> v == -1
    ensures forall k | IsFirstRecord(chain, k, modName, instance, name) ::
              && (!chain[k].readable ==> v == -1)
              && ((forall j | 0 <= j < |chain[k].fields| :: chain[k].fields[j].name != field) ==> v == -1)
              && (forall j | IsFirstField(chain[k].fields, j, field) ::
                    chain[k].readable ==> v == AsLong(chain[k].fields[j].data))
  {
    match LookupFrom(chain, 0, modName, instance, name)
    case None => -1
    case Some(k) =>
      if !chain[k].readable then -1
      else match FieldFrom(chain[k].fields, 0, field)
        case None => -1
        case Some(j) => AsLong(chain[k].fields[j].data)
  }
}

=== FILE: publish.dfy ===
/** How the driver publishes a core's readings: one named kstat per
    physical core, module "coretemp", instance = the core's position in
    the registry, name "coretemp", whose data is the eight INT32 fields of
    ctemp_kstat_t in declaration order. */
module Publication {
  import opened Wrappers
  import opened Ints
  import opened KStat
  import opened CoreTemp
  import Topology

  const ModuleName: string := "coretemp"
  const RecordName: string := "coretemp"

  const FieldNames: seq<string> :=
    ["chip_id", "core_id", "thread_id", "core_temp", "chip_temp", "tj_max", "target_temp", "valid"]

  /** The kstat_named_t array after an update has filled `s` */
  function Fields(s: Stats): (fs: seq<Named>)
    ensures |fs| == |FieldNames| == 8
    ensures forall j | 0 <= j < |fs| :: fs[j].name == FieldNames[j] && fs[j].data.Int32Data?
  {
    [ Named("chip_id", Int32Data(s.chipId)),
      Named("core_id", Int32Data(s.coreId)),
      Named("thread_id", Int32Data(s.threadId)),
      Named("core_temp", Int32Data(s.coreTemp)),
      Named("chip_temp", Int32Data(s.chipTemp)),
      Named("tj_max", Int32Data(s.tjMax)),
      Named("target_temp", Int32Data(s.targetTemp)),
      Named("valid", Int32Data(s.valid)) ]
  }

  /** The kstat the driver installs for core table entry `i`, as a reader
      sees it once the refresh callback `u` has run: kstat_read succeeds
      only when the callback returns 0, and the data is the shared buffer
      the callback left behind */
  function Published(i: nat, u: Update): (r: Record)
    ensures Matches(r, ModuleName, i, RecordName) && Matches(r, ModuleName, -1, RecordName)
    ensures r.readable <==> u.status == Success
    ensures |r.fields| == 8
  {
    Record(ModuleName, i, RecordName, u.status == Success, Fields(u.stats))
  }

  /** The field names of ctemp_kstat_t are pairwise distinct, so every one
      of them is found at its own position */
  lemma FieldNamesDistinct()
    ensures forall j, j' | 0 <= j < j' < |FieldNames| :: FieldNames[j] != FieldNames[j']
  {
  }

  /** A reader asking for instance `i` reads back each value a successful
      refresh wrote */
  lemma {:induction false} ReadBack(chain: seq<Record>, k: nat, i: nat, u: Update)
    requires IsFirstRecord(chain, k, ModuleName, i, RecordName)
    requires chain[k] == Published(i, u)
    requires u.status == Success
    ensures GetKStatNumber(chain, ModuleName, i, RecordName, "chip_id") == u.stats.chipId
    ensures GetKStatNumber(chain, ModuleName, i, RecordName, "core_id") == u.stats.coreId
    ensures GetKStatNumber(chain, ModuleName, i, RecordName, "thread_id") == u.stats.threadId
    ensures GetKStatNumber(chain, ModuleName, i, RecordName, "core_temp") == u.stats.coreTemp
    ensures GetKStatNumber(chain, ModuleName, i, RecordName, "chip_temp") == u.stats.chipTemp
    ensures GetKStatNumber(chain, ModuleName, i, RecordName, "tj_max") == u.stats.tjMax
    ensures GetKStatNumber(chain, ModuleName, i, RecordName, "target_temp") == u.stats.targetTemp
    ensures GetKStatNumber(chain, ModuleName, i, RecordName, "valid") == u.stats.valid
  {
    var fs := Fields(u.stats);
    FieldNamesDistinct();
    assert IsFirstField(fs, 0, "chip_id");
    assert IsFirstField(fs, 1, "core_id");
    assert IsFirstField(fs, 2, "thread_id");
    assert IsFirstField(fs, 3, "core_temp");
    assert IsFirstField(fs, 4, "chip_temp");
    assert IsFirstField(fs, 5, "tj_max");
    assert IsFirstField(fs, 6, "target_temp");
    assert IsFirstField(fs, 7, "valid");
  }

  /** A failed refresh (no MSR feature: ENXIO) fails the reader's
      kstat_read, so every field reads as -1 rather than the cleared
      valid flag the callback left in the buffer */
  lemma UnsupportedReadsMinusOne(chain: seq<Record>, k: nat, i: nat, vendor: Vendor, model: int,
                                 cpuidEax: bv32, msrs: Msrs, ids: CpuIds, s: Stats, field: string)
    requires IsFirstRecord(chain, k, ModuleName, i, RecordName)
    requires chain[k] == Published(i, KStatUpdate(KStatRead, false, vendor, model, cpuidEax, msrs, ids, s))
    ensures GetKStatNumber(chain, ModuleName, i, RecordName, field) == -1
  {
  }

  /** The records ctemp_attach installs for the core table `cores`, with
      record i refreshed for the cpu of entry i (its ks_private);
      `refresh(c)` is what the update callback returns for cpu c. */
  function Chain(cores: seq<Topology.Core>, refresh: nat -> Update): (chain: seq<Record>)
    ensures |chain| == |cores|
    ensures forall i | 0 <= i < |cores| :: IsFirstRecord(chain, i, ModuleName, i, RecordName)
    ensures forall i | 0 <= i < |cores| ::
              && (chain[i].readable <==> refresh(cores[i].cpu).status == Success)
              && chain[i].fields == Fields(refresh(cores[i].cpu).stats)
  {
    var chain := seq(|cores|, i requires 0 <= i < |cores| => Published(i, refresh(cores[i].cpu)));
    forall i | 0 <= i < |cores|
      ensures chain[i].instance == i && Matches(chain[i], ModuleName, i, RecordName)
    {
      assert chain[i] == Published(i, refresh(cores[i].cpu));
    }
    chain
  }

  /** Looking up instance `i` of the installed records reads the fields
      the refresh of core table entry i's cpu wrote, or -1 for every
      field when that refresh failed */
  lemma ChainReadBack(cores: seq<Topology.Core>, refresh: nat -> Update, i: nat)
    requires i < |cores|
    ensures var u := refresh(cores[i].cpu);
            var chain := Chain(cores, refresh);
            u.status == Success ==>
              && GetKStatNumber(chain, ModuleName, i, RecordName, "chip_id") == u.stats.chipId
              && GetKStatNumber(chain, ModuleName, i, RecordName, "core_id") == u.stats.coreId
              && GetKStatNumber(chain, ModuleName, i, RecordName, "thread_id") == u.stats.threadId
              && GetKStatNumber(chain, ModuleName, i, RecordName, "core_temp") == u.stats.coreTemp
              && GetKStatNumber(chain, ModuleName, i, RecordName, "chip_temp") == u.stats.chipTemp
              && GetKStatNumber(chain, ModuleName, i, RecordName, "tj_max") == u.stats.tjMax
              && GetKStatNumber(chain, ModuleName, i, RecordName, "target_temp") == u.stats.targetTemp
              && GetKStatNumber(chain, ModuleName, i, RecordName, "valid") == u.stats.valid
    ensures var u := refresh(cores[i].cpu);
            u.status != Success ==>
              forall field :: GetKStatNumber(Chain(cores, refresh), ModuleName, i, RecordName, field) == -1
  {
    var u := refresh(cores[i].cpu);
    var chain := Chain(cores, refresh);
    assert chain[i] == Published(i, u);
    if u.status == Success {
      ReadBack(chain, i, i, u);
    }
  }
}

=== FILE: topology.dfy ===
/** Attach and detach of the coretemp driver: the command and vendor checks,
    and the scan that keeps one representative cpu per physical core.

    The driver keeps its core table (`cores`, `ncores`) in globals that are
    never cleared, so the scan is modelled as extending a registry it is
    given: the first attach starts from the empty registry. */
module Topology {
  import opened Wrappers
  import CoreTemp

  /** One logical cpu as the topology queries describe it; `cpu` is its
      position in the kernel's cpu[] table. */
  datatype Proc = Proc(chipId: int, coreId: int, cpu: nat)

  /** An entry of the core table: the (chip id, core id) pair of a physical
      core and the cpu whose record reads its sensor, the same triple the
      scan reads for a cpu */
  type Core = Proc

  datatype AttachCmd = DdiAttach | DdiResume
  datatype DetachCmd = DdiDetach | DdiSuspend
  datatype DdiResult = DdiSuccess | DdiFailure

  /** Result of attach: its status and the core table it leaves behind */
  datatype Attached = Attached(result: DdiResult, cores: seq<Core>)

  /** Result of detach: its status and the record slots it deletes */
  datatype Detached = Detached(result: DdiResult, deleted: seq<nat>)

  /** The physical core a cpu or a table entry belongs to */
  function Key(p: Proc): (int, int) {
    (p.chipId, p.coreId)
  }

  /** Some entry of the registry is the core `key` */
  predicate InRegistry(cores: seq<Core>, key: (int, int)) {
    exists j | 0 <= j < |cores| :: Key(cores[j]) == key
  }

  /** No physical core appears twice */
  predicate NoDuplicates(cores: seq<Core>) {
    forall a, b | 0 <= a < b < |cores| :: Key(cores[a]) != Key(cores[b])
  }

  /** The `visited` scan over the registry entries from `j` on */
  function VisitedFrom(cores: seq<Core>, j: nat, key: (int, int)): (v: bool)
    requires j <= |cores|
    ensures v <==> exists k | j <= k < |cores| :: Key(cores[k]) == key
    decreases |cores| - j
  {
    if j == |cores| then false
    else if Key(cores[j]) == key then true
    else VisitedFrom(cores, j + 1, key)
  }

  /** Position of the first cpu at or after `i` that belongs to core `key` */
  function FirstFrom(procs: seq<Proc>, i: nat, key: (int, int)): (r: Option<nat>)
    requires i <= |procs|
    ensures r.Some? ==> i <= r.value < |procs| && Key(procs[r.value]) == key
    ensures r.Some? ==> forall j | i <= j < r.value :: Key(procs[j]) != key
    ensures r.None? ==> forall j | i <= j < |procs| :: Key(procs[j]) != key
    decreases |procs| - i
  {
    if i == |procs| then None
    else if Key(procs[i]) == key then Some(i)
    else FirstFrom(procs, i + 1, key)
  }

  /** Position of the first cpu that belongs to core `key` */
  function FirstOccurrence(procs: seq<Proc>, key: (int, int)): Option<nat> {
    FirstFrom(procs, 0, key)
  }

  /** The outer loop of the scan over cpus i, i+1, ...: a cpu whose core is
      not yet in the registry is appended as that core's representative. */
  function DedupFrom(cores: seq<Core>, procs: seq<Proc>, i: nat): (r: seq<Core>)
    requires i <= |procs|
    ensures |cores| <= |r| <= |cores| + (|procs| - i)
    ensures r[..|cores|] == cores
    decreases |procs| - i
  {
    if i == |procs| then cores
    else
      DedupFrom(ScanStep(cores, procs[i]), procs, i + 1)
  }

  /** One step of the scan: cpu p's core is in `next`, which extends
      `cores` by cpu p's core exactly when it was not yet there. */
  function ScanStep(cores: seq<Core>, p: Proc): (next: seq<Core>)
    ensures InRegistry(next, Key(p))
    ensures next == cores || next == cores + [p]
    ensures next == cores <==> InRegistry(cores, Key(p))
  {
    if VisitedFrom(cores, 0, Key(p)) then cores
    else
      var next := cores + [p];
      assert Key(next[|cores|]) == Key(p);
      next
  }

  /** A registry is a prefix of everything the scan builds on it */
  lemma PrefixInRegistry(cores: seq<Core>, r: seq<Core>, key: (int, int))
    requires |cores| <= |r| && r[..|cores|] == cores
    requires InRegistry(cores, key)
    ensures InRegistry(r, key)
  {
    var j :| 0 <= j < |cores| && Key(cores[j]) == key;
    assert r[j] == cores[j];
  }

  /** The scan never adds a core that is already in the registry */
  lemma {:induction false} DedupKeepsUnique(cores: seq<Core>, procs: seq<Proc>, i: nat)
    requires i <= |procs|
    requires NoDuplicates(cores)
    ensures NoDuplicates(DedupFrom(cores, procs, i))
    decreases |procs| - i
  {
    if i < |procs| {
      var next := ScanStep(cores, procs[i]);
      forall a, b | 0 <= a < b < |next|
        ensures Key(next[a]) != Key(next[b])
      {
        if b == |cores| {
          assert next[a] == cores[a];
        }
      }
      DedupKeepsUnique(next, procs, i + 1);
    }
  }

  /** Every cpu scanned has its core in the resulting registry */
  lemma {:induction false} DedupCovers(cores: seq<Core>, procs: seq<Proc>, i: nat)
    requires i <= |procs|
    ensures forall j | i <= j < |procs| :: InRegistry(DedupFrom(cores, procs, i), Key(procs[j]))
    decreases |procs| - i
  {
    if i < |procs| {
      var next := ScanStep(cores, procs[i]);
      var r := DedupFrom(next, procs, i + 1);
      assert r == DedupFrom(cores, procs, i);
      DedupCovers(next, procs, i + 1);
      PrefixInRegistry(next, r, Key(procs[i]));
    }
  }

  /** Every cpu before position `i` has its core in the registry */
  predicate ScannedBefore(cores: seq<Core>, procs: seq<Proc>, i: nat)
    requires i <= |procs|
  {
    forall j | 0 <= j < i :: InRegistry(cores, Key(procs[j]))
  }

  /** Every entry of `r` past `cores` is a core not in `cores`, represented
      by the first cpu of `procs` that belongs to it */
  predicate AppendedFirst(cores: seq<Core>, procs: seq<Proc>, r: seq<Core>) {
    forall a | |cores| <= a < |r| ::
      && !InRegistry(cores, Key(r[a]))
      && FirstOccurrence(procs, Key(r[a])).Some?
      && procs[FirstOccurrence(procs, Key(r[a])).value].cpu == r[a].cpu
  }

  /** The entries of `r` past `cores` are ordered by where their first cpus
      appear in `procs` */
  predicate AppendedInOrder(cores: seq<Core>, procs: seq<Proc>, r: seq<Core>)
    requires AppendedFirst(cores, procs, r)
  {
    forall a, b | |cores| <= a < b < |r| ::
      FirstOccurrence(procs, Key(r[a])).value < FirstOccurrence(procs, Key(r[b])).value
  }

  /** A core not in a registry that holds the cores of cpus 0 .. i-1 first
      appears at position i or later */
  lemma FirstOccurrenceAfter(cores: seq<Core>, procs: seq<Proc>, i: nat, key: (int, int))
    requires i <= |procs|
    requires ScannedBefore(cores, procs, i)
    requires !InRegistry(cores, key)
    ensures FirstOccurrence(procs, key).Some? ==> FirstOccurrence(procs, key).value >= i
  {
    forall j | 0 <= j < i
      ensures Key(procs[j]) != key
    {
      assert InRegistry(cores, Key(procs[j]));
    }
  }

  /** A core not in a registry that holds the cores of cpus 0 .. i-1 and
      that cpu i belongs to first appears at position i */
  lemma FirstOccurrenceAt(cores: seq<Core>, procs: seq<Proc>, i: nat)
    requires i < |procs|
    requires ScannedBefore(cores, procs, i)
    requires !InRegistry(cores, Key(procs[i]))
    ensures FirstOccurrence(procs, Key(procs[i])) == Some(i)
  {
    FirstOccurrenceAfter(cores, procs, i, Key(procs[i]));
  }

  /** Scanning cpu i keeps the registry holding the cores of all cpus
      scanned so far */
  lemma ScanStepScanned(cores: seq<Core>, procs: seq<Proc>, i: nat)
    requires i < |procs|
    requires ScannedBefore(cores, procs, i)
    ensures ScannedBefore(ScanStep(cores, procs[i]), procs, i + 1)
  {
    var next := ScanStep(cores, procs[i]);
    forall j | 0 <= j < i + 1
      ensures InRegistry(next, Key(procs[j]))
    {
      if j < i {
        PrefixInRegistry(cores, next, Key(procs[j]));
      }
    }
  }

  /** An entry past `ScanStep(cores, p)` is new to `cores` if it is new to
      `ScanStep(cores, p)` */
  lemma NotInStepNotInCores(cores: seq<Core>, p: Proc, key: (int, int))
    requires !InRegistry(ScanStep(cores, p), key)
    ensures !InRegistry(cores, key)
    ensures key != Key(p)
  {
    var next := ScanStep(cores, p);
    forall j | 0 <= j < |cores|
      ensures Key(cores[j]) != key
    {
      assert next[j] == cores[j];
    }
  }

  /** Every core the scan appends is new and is represented by the first
      cpu that belongs to it. */
  lemma {:induction false} DedupAppendedFirst(cores: seq<Core>, procs: seq<Proc>, i: nat)
    requires i <= |procs|
    requires ScannedBefore(cores, procs, i)
    ensures AppendedFirst(cores, procs, DedupFrom(cores, procs, i))
    decreases |procs| - i
  {
    if i < |procs| {
      var next := ScanStep(cores, procs[i]);
      var r := DedupFrom(next, procs, i + 1);
      assert r == DedupFrom(cores, procs, i);
      ScanStepScanned(cores, procs, i);
      DedupAppendedFirst(next, procs, i + 1);
      forall a | |next| <= a < |r|
        ensures !InRegistry(cores, Key(r[a]))
      {
        NotInStepNotInCores(cores, procs[i], Key(r[a]));
      }
      if next != cores {
        assert r[|cores|] == next[|cores|];
        FirstOccurrenceAt(cores, procs, i);
      }
    }
  }

  /** The cores the scan appends appear in the order in which their first
      cpus appear. */
  lemma {:induction false} DedupAppendedInOrder(cores: seq<Core>, procs: seq<Proc>, i: nat)
    requires i <= |procs|
    requires ScannedBefore(cores, procs, i)
    ensures AppendedFirst(cores, procs, DedupFrom(cores, procs, i))
    ensures AppendedInOrder(cores, procs, DedupFrom(cores, procs, i))
    decreases |procs| - i
  {
    DedupAppendedFirst(cores, procs, i);
    if i < |procs| {
      var next := ScanStep(cores, procs[i]);
      var r := DedupFrom(next, procs, i + 1);
      assert r == DedupFrom(cores, procs, i);
      ScanStepScanned(cores, procs, i);
      DedupAppendedInOrder(next, procs, i + 1);
      if next != cores {
        assert r[|cores|] == next[|cores|];
        FirstOccurrenceAt(cores, procs, i);
        forall b | |next| <= b < |r|
          ensures FirstOccurrence(procs, Key(r[b])).value > i
        {
          assert !InRegistry(next, Key(r[b]));
          FirstOccurrenceAfter(next, procs, i + 1, Key(r[b]));
        }
      }
    }
  }

  /** The core table built by the first attach */
  function Dedup(procs: seq<Proc>): (cores: seq<Core>)
    ensures |cores| <= |procs|
    ensures NoDuplicates(cores)
    ensures forall j | 0 <= j < |procs| :: InRegistry(cores, Key(procs[j]))
    ensures forall a | 0 <= a < |cores| ::
              && FirstOccurrence(procs, Key(cores[a])).Some?
              && procs[FirstOccurrence(procs, Key(cores[a])).value].cpu == cores[a].cpu
    ensures forall a, b | 0 <= a < b < |cores| ::
              FirstOccurrence(procs, Key(cores[a])).value < FirstOccurrence(procs, Key(cores[b])).value
  {
    DedupKeepsUnique([], procs, 0);
    DedupCovers([], procs, 0);
    DedupAppendedInOrder([], procs, 0);
    DedupFrom([], procs, 0)
  }

  /** The distinct physical cores among the cpus */
  function ProcKeys(procs: seq<Proc>): set<(int, int)> {
    set j | 0 <= j < |procs| :: Key(procs[j])
  }

  /** The physical cores in a registry */
  function CoreKeys(cores: seq<Core>): set<(int, int)> {
    set a | 0 <= a < |cores| :: Key(cores[a])
  }

  /** A registry without duplicates has one entry per core it names */
  lemma {:induction false} UniqueKeysCount(cores: seq<Core>)
    requires NoDuplicates(cores)
    ensures |CoreKeys(cores)| == |cores|
    decreases |cores|
  {
    if cores != [] {
      var init := cores[..|cores| - 1];
      var last := cores[|cores| - 1];
      assert NoDuplicates(init) by {
        forall a, b | 0 <= a < b < |init|
          ensures Key(init[a]) != Key(init[b])
        {
          assert init[a] == cores[a] && init[b] == cores[b];
        }
      }
      UniqueKeysCount(init);
      assert CoreKeys(cores) == CoreKeys(init) + {Key(last)} by {
        forall k | k in CoreKeys(cores)
          ensures k in CoreKeys(init) + {Key(last)}
        {
          var a :| 0 <= a < |cores| && Key(cores[a]) == k;
          if a < |init| {
            assert init[a] == cores[a];
          }
        }
        forall k | k in CoreKeys(init)
          ensures k in CoreKeys(cores)
        {
          var a :| 0 <= a < |init| && Key(init[a]) == k;
          assert init[a] == cores[a];
        }
      }
      assert Key(last) !in CoreKeys(init) by {
        forall a | 0 <= a < |init|
          ensures Key(init[a]) != Key(last)
        {
          assert init[a] == cores[a];
        }
      }
    }
  }

  /** The first attach creates exactly one record per distinct
      (chip id, core id) pair among the cpus. */
  lemma DedupCount(procs: seq<Proc>)
    ensures |Dedup(procs)| == |ProcKeys(procs)|
  {
    var cores := Dedup(procs);
    UniqueKeysCount(cores);
    forall k | k in ProcKeys(procs)
      ensures k in CoreKeys(cores)
    {
      var j :| 0 <= j < |procs| && Key(procs[j]) == k;
      assert InRegistry(cores, Key(procs[j]));
    }
    forall k | k in CoreKeys(cores)
      ensures k in ProcKeys(procs)
    {
      var a :| 0 <= a < |cores| && Key(cores[a]) == k;
      var f := FirstOccurrence(procs, k);
      assert Key(procs[f.value]) == k;
    }
    assert CoreKeys(cores) == ProcKeys(procs);
  }

  /** Scanning cpus whose cores are all in the registry changes nothing */
  lemma {:induction false} DedupKnownCores(cores: seq<Core>, procs: seq<Proc>, i: nat)
    requires i <= |procs|
    requires forall j | i <= j < |procs| :: InRegistry(cores, Key(procs[j]))
    ensures DedupFrom(cores, procs, i) == cores
    decreases |procs| - i
  {
    if i < |procs| {
      assert ScanStep(cores, procs[i]) == cores;
      DedupKnownCores(cores, procs, i + 1);
    }
  }

  /** Detach leaves the core table in place, so attaching again over the
      same cpus keeps the table of the first attach. */
  lemma ReattachKeepsRegistry(procs: seq<Proc>, vendor: CoreTemp.Vendor)
    requires vendor == CoreTemp.VendorIntel
    ensures Attach(DdiAttach, true, vendor, procs, Dedup(procs), true) == Attached(DdiSuccess, Dedup(procs))
  {
    DedupKnownCores(Dedup(procs), procs, 0);
  }

  /** The checks ctemp_attach makes before it touches the core table */
  predicate AttachAllowed(cmd: AttachCmd, hasCpuid: bool, vendor: CoreTemp.Vendor) {
    cmd == DdiAttach && hasCpuid && vendor == CoreTemp.VendorIntel
  }

  /** ctemp_attach: the command, CPUID and vendor checks, then the scan,
      then one record per core.  `prior` is the core table left by earlier
      attaches; `created` is whether every kstat_create succeeded.  A
      failed creation returns DDI_FAILURE without undoing the scan. */
  function Attach(cmd: AttachCmd, hasCpuid: bool, vendor: CoreTemp.Vendor,
                  procs: seq<Proc>, prior: seq<Core>, created: bool): (a: Attached)
    ensures a.result == DdiSuccess <==> AttachAllowed(cmd, hasCpuid, vendor) && created
    ensures !AttachAllowed(cmd, hasCpuid, vendor) ==> a == Attached(DdiFailure, prior)
    ensures AttachAllowed(cmd, hasCpuid, vendor) ==> |prior| <= |a.cores| && a.cores[..|prior|] == prior
    ensures AttachAllowed(cmd, hasCpuid, vendor) && NoDuplicates(prior) ==> NoDuplicates(a.cores)
    ensures AttachAllowed(cmd, hasCpuid, vendor) ==>
              forall j | 0 <= j < |procs| :: InRegistry(a.cores, Key(procs[j]))
    ensures AttachAllowed(cmd, hasCpuid, vendor) ==>
              AppendedFirst(prior, procs, a.cores) && AppendedInOrder(prior, procs, a.cores)
  {
    if cmd != DdiAttach then Attached(DdiFailure, prior)
    else if !hasCpuid then Attached(DdiFailure, prior)
    else match vendor
      case VendorIntel =>
        var cores := DedupFrom(prior, procs, 0);
        DedupCovers(prior, procs, 0);
        DedupAppendedInOrder(prior, procs, 0);
        assert NoDuplicates(prior) ==> NoDuplicates(cores) by {
          if NoDuplicates(prior) {
            DedupKeepsUnique(prior, procs, 0);
          }
        }
        Attached(if created then DdiSuccess else DdiFailure, cores)
      case VendorOther => Attached(DdiFailure, prior)
  }

  /** ctemp_detach: any command but DDI_DETACH fails; otherwise the record
      slots 0 .. ncpus-1 are deleted. */
  function Detach(cmd: DetachCmd, ncpus: nat): (d: Detached)
    ensures d.result == DdiSuccess <==> cmd == DdiDetach
    ensures d.result == DdiFailure ==> d.deleted == []
    ensures d.result == DdiSuccess ==> |d.deleted| == ncpus && forall k | 0 <= k < ncpus :: d.deleted[k] == k
  {
    if cmd != DdiDetach then Detached(DdiFailure, [])
    else Detached(DdiSuccess, seq(ncpus, k => k))
  }
}

=== FILE: wrappers.dfy ===
/** Optional values: `None` stands for a failed register read or a missing
    kstat record/field. */
module Wrappers {

  datatype Option<+T> = None | Some(value: T)
}
